=== FILE: README.md ===
# Seismic download and trigger-ledger scripts, modelled in Dafny

This project models the decision logic of a set of Python scripts. The
scripts download hourly or daily SAC waveform archives of one seismic station
from an FDSN `dataselect` service. They then run an STA/LTA trigger detector
over the files and append one row per file to a CSV ledger,
`trigger_info.csv`.

The project models:

- **Calendar.** Naive `datetime` values are modelled as a civil record
  (`Civil.DateTime`, proleptic Gregorian) with a bijection to whole seconds.
  `datetime + timedelta` is arithmetic on that count. `.date()` is its day
  part. The monthly step `(m + timedelta(days=32)).replace(day=1)` is
  `Civil.MonthStep`.
- **Text forms.** `strftime("%Y-%m-%dT%H:%M:%S")` and `strftime("%Y-%m")`
  are modelled, with readers that prove they round-trip (`Stamp`). So is
  `str()` of a detector pair and the `', '`-join of the pairs (`Triggers`).
- **Time chunks** (`Chunks`):
  - the `range(int((end - start) / 1h) + 1)` list of `test.py`;
  - the `while t <= end` loops of `downloader2.py` and `single.py`;
  - the day walk of the monthly pipeline.
- **The retry loop** of `download_and_extract_data` (`Fetch`). It is one
  function parameterised by which exceptions each script catches. The server
  is a stream of replies, one per attempt. Sleeps are counted, not performed.
  The monthly pipeline's single unretried daily request is `Fetch.FetchOnce`.
- **The three hourly scripts as wholes** (`Hourly`). `test.py` maps over its
  chunk list in `Pool.map`'s batches; an exception ends its batch, and `map`
  re-raises it once every batch is done. `downloader2.py` never
  collects its workers' results. `single.py` runs the hours sequentially and
  dies on the first uncaught exception.
- **The ledger** (`Ledger`). It is `None` while the file does not exist, and
  otherwise holds its lines. It covers the header written on creation, row
  construction, and the day-level "already processed" query.
- **The per-file loop** (`Process`): `process_seismic_data` and
  `test_part2.py`. This covers:
  - the `.SAC` filter and the empty-stream skip;
  - the bare name versus the joined path in `SAC_file`;
  - the exception handlers, including the `NameError` raised in
    `test_part2.py` when `trace` was never bound.
- **The month loop** of `seismicPipeline.py` (`Pipeline`): consecutive months,
  skipping days already in the ledger, one request per missing day, then
  processing the month folder.

Reading a SAC file and the signal processing (high-pass filter,
`classic_sta_lta`, `trigger_onset`) are given functions (`Process.Reader`,
`Process.Detector`). So are the server's replies and the archive contents
(`Fetch.Replies`, `Hourly.Server`, `Pipeline.Server`). A folder listing is a
given sequence of names.

Three behaviours of the code that the model follows, which a reader might
not expect:

- The last hourly window is not clipped to the end of the range. It always
  spans a full hour (`Chunks.WindowsCover`).
- The `range` formula of `test.py` and the `while` loops of the other two
  scripts are not interchangeable in every case. On a range reversed by less
  than an hour, `int()` truncates toward zero. The list then holds one chunk,
  where the loop holds none (`Chunks.RangeDiffersOnShortReversal`). They
  agree on every range that is not reversed (`Chunks.RangeMatchesWhile`).
- A 200 reply whose body is not a zip archive raises `BadZipFile`. Only
  `single.py` catches it. In `test.py`, in `downloader2.py` and in the
  pipeline's daily request it escapes, because it is not a
  `RequestException`.

## Model

| member | source | states |
|---|---|---|
| Civil.FromToInstant | Concurrent/process/seismicPipeline.py:132 | a valid civil date-time read back from its instant is itself, so `timedelta` arithmetic on instants is faithful |
| Civil.ToFromInstant | Concurrent/process/seismicPipeline.py:65 | every instant is the instant of the date-time read from it |
| Civil.ToInstantInjective | Concurrent/process/seismicPipeline.py:131 | two valid date-times have the same instant exactly when they are equal |
| Civil.SameDayIffSameDate | Concurrent/process/seismicPipeline.py:35 | two instants have the same `.date()` exactly when their civil year, month and day agree, whatever the time of day |
| Civil.FirstOfNext | Concurrent/process/seismicPipeline.py:132 | the first of the following month keeps the time of day, has month index one more, and from a first lies `DaysInMonth` days later |
| Civil.MonthStepFromFirst | Concurrent/process/seismicPipeline.py:129-132 | from the first of any month, adding 32 days and replacing the day by 1 gives the first of the next month, December and every February included |
| Civil.LandingFromFirst | Concurrent/process/seismicPipeline.py:132 | 32 days after the first of a month is day `33 - DaysInMonth` of the next month, same time of day |
| Civil.MonthStepFromLastDay | Concurrent/process/seismicPipeline.py:129-132 | from 31 January the same step lands in March, skipping February: the step is only right because the loop starts on a first |
| Civil.NextMonth | Concurrent/process/seismicPipeline.py:132 | the month after (y, m) is a valid month whose index is one more, December wrapping to January |
| Decimal.DecValue | Concurrent/process/seismicPipeline.py:96 | `str(n)` of a natural number reads back to n |
| Decimal.DecNoLeadingZero | Concurrent/process/seismicPipeline.py:96 | `str(n)` starts with 0 only for zero |
| Decimal.Pad | Concurrent/download/test.py:31 | a `strftime` numeric field is digits, and exactly w of them holding the value when the value fits the width |
| Decimal.FixedOfValue | Concurrent/download/test.py:31 | a fixed-width digit field has exactly one form |
| Stamp.ParseFormat | Concurrent/download/test.py:31-38 | the `%Y-%m-%dT%H:%M:%S` text of a date-time with a four-digit year has 19 characters and reads back to the date-time |
| Stamp.FormatInjective | Concurrent/download/test.py:31-38 | two such date-times have the same request text exactly when they are equal |
| Stamp.YearMonthIdentifiesMonth | Concurrent/process/seismicPipeline.py:25 | two date-times have the same `%Y-%m` text exactly when they share year and month |
| Chunks.TruncDiv | Concurrent/download/test.py:72 | `int(a / b)` rounds toward zero: it brackets a from below for a >= 0 and from above for a < 0 |
| Chunks.Stride | Concurrent/download/downloader2.py:68-72 | the loop `while t < limit: t += step` visits `t + k*step`, the last one below the limit and the next one not |
| Chunks.HourlyStarts | Concurrent/download/downloader2.py:68-72 | the hours visited by `while t <= end` are `start + k*1h`, none after end, the loop stops only once the next hour passes end, and there are some exactly when start <= end |
| Chunks.RangeStartsShape | Concurrent/download/test.py:71-72 | the chunk list has `floor((end - start)/1h) + 1` starts, begins at start, is strictly ascending and never passes end |
| Chunks.RangeMatchesWhile | Concurrent/download/downloader2.py:68-72 | on a range that is not reversed the list comprehension and the `while` loop enumerate the same hours |
| Chunks.RangeDiffersOnShortReversal | Concurrent/download/test.py:72 | on a range reversed by less than an hour the list holds one chunk and the loop none |
| Chunks.Windows | Concurrent/download/test.py:37-38 | the request windows of a chunk list, one per start; that they tile the range without gap or overlap is stated by `Chunks.WindowsAbut` and `Chunks.WindowsCover` |
| Chunks.WindowsAbut | Concurrent/download/test.py:37-38 | each hourly window ends exactly where the next begins |
| Chunks.WindowsCover | Concurrent/download/test.py:37-38 | every instant of `[start, end]` lies in exactly one hourly window, and the last window runs past end |
| Fetch.Loop | Concurrent/download/test.py:41-63 | the loop sends at most three requests; every reply before the last is a 413; it ends Exhausted exactly after three 413s; otherwise the last reply alone decides the outcome; it sleeps 5 s per 413 consumed |
| Fetch.Fetch | Concurrent/download/test.py:30-63 | one fetch sends between one and three requests |
| Fetch.TaggedOutcomes | Concurrent/download/test.py:44-63 | in `test.py` a network failure never escapes and only `BadZipFile` can |
| Fetch.SilentOutcomes | Concurrent/download/downloader2.py:44-58 | in `downloader2.py` nothing is caught: network failures and corrupt archives escape |
| Fetch.ZipCheckedOutcomes | Concurrent/download/single.py:43-61 | in `single.py` a corrupt archive is caught and only a `RequestException` can escape |
| Fetch.ExhaustedIffThreeTooLarge | Concurrent/download/test.py:41-63 | the fetch ends with "Max retries reached" exactly when the first three replies are 413, after 3 requests and 15 s of sleep |
| Fetch.StopsAtFirstNonTooLarge | Concurrent/download/downloader2.py:44-58 | after k 413s the first other reply decides the outcome, with k+1 requests and 5k seconds of sleep |
| Fetch.OkEndsAtOnce | Concurrent/download/test.py:47-51 | a first reply of 200 ends the fetch after one request with no sleep: extracted, corrupt (single.py) or raised |
| Fetch.OtherStatusNotRetried | Concurrent/download/test.py:56-58 | a status other than 200 and 413 ends the fetch as Failed with that code, without a retry |
| Fetch.TaggedNetworkErrorAfterRetries | Concurrent/download/test.py:59-61 | in `test.py` a network failure returns Error at once, even after earlier 413 retries |
| Fetch.FetchOnce | Concurrent/process/seismicPipeline.py:55-63 | the daily request is sent once, never retried and never slept on; a non-200 status is reported with its code; only a 200 without a zip body raises, and it raises `BadZipFile` |
| Fetch.FetchOnceAgreesWithTagged | Concurrent/process/seismicPipeline.py:55-63 | on any first reply but 413 the daily request ends like the retry loop of `test.py` |
| Fetch.QueryFor | Concurrent/download/test.py:32-39 | the request carries the source's network, station, channel and format, and start and end texts that read back to the window's ends |
| Fetch.QueriesAbut | Concurrent/download/test.py:37-38 | each hourly request's `endtime` text is the next request's `starttime` text |
| Hourly.FetchAll | Concurrent/download/test.py:75-76 | mapping the fetch over the chunk list gives one result per chunk |
| Hourly.FetchAllAt | Concurrent/download/test.py:75-76 | the k-th result is the fetch of the k-th chunk |
| Hourly.RequestsBetween | Concurrent/download/test.py:41-44 | a run over n chunks sends between n and 3n requests |
| Hourly.BackoffPerTooLarge | Concurrent/download/test.py:52-55 | over a whole run the total sleep is 5 s per 413 reply consumed |
| Hourly.AnyRaisedIff | Concurrent/download/test.py:75-76 | an exception escaped the run exactly when some fetch of it raised |
| Hourly.ChunkSize | Concurrent/download/test.py:66-76 | `Pool.map`'s default chunksize for n tasks on 8 workers is n/32 rounded up, and 0 for no task |
| Hourly.Batches | Concurrent/download/test.py:75-76 | the batches handed to the workers are non-empty, all of the chunksize but the last, and concatenate back to the task list |
| Hourly.SequentialAgainstAll | Concurrent/download/test.py:75-76 | one worker's batch raises exactly when some hour of it would, and without a raise it fetches every hour of the batch in order |
| Hourly.MapBatchesAgainstAll | Concurrent/download/test.py:75-76 | the batched map makes at most one fetch per hour, raises exactly when some hour of the whole list would, and without a raise fetches every hour in list order |
| Hourly.PoolMapAgainstAll | Concurrent/download/test.py:75-76 | the same for `pool.map` with its default chunksize |
| Hourly.TaggedScript | Concurrent/download/test.py:71-76 | `test.py` maps over its range list: at most one fetch per chunk, it raises exactly when some chunk's fetch would, and without a raise every chunk is fetched in order |
| Hourly.TaggedScriptRaises | Concurrent/download/test.py:75-76 | `pool.map` raises exactly when some hour's reply was a 200 without a zip body |
| Hourly.SilentScript | Concurrent/download/downloader2.py:67-75 | `downloader2.py` fetches every hour of its loop, in order, its runs being the fetches of those hours (k-th by `Hourly.FetchAllAt`), and no exception reaches the main process |
| Hourly.SilentSameHoursAsTagged | Concurrent/download/downloader2.py:68-72 | on a range that is not reversed, `downloader2.py` walks the same hours as `test.py`, and when `test.py` raises nothing it requests them in the same order with the same number of requests each |
| Hourly.SameRequests | Concurrent/download/downloader2.py:41-58 | the three copies of the retry loop send the same number of requests for the same replies |
| Hourly.Sequential | Concurrent/download/single.py:69-71 | the sequential loop makes at most one fetch per hour, and at least one when there is an hour |
| Hourly.SingleScript | Concurrent/download/single.py:64-71 | `single.py` iterates over the hours of `while t <= end`; which of them it fetches, and where it stops, is stated by `Hourly.SingleScriptFetches` and `Hourly.SingleScriptStops` |
| Hourly.SequentialIsPrefix | Concurrent/download/single.py:69-71 | the sequential fetches are a prefix of the fetches of all the hours |
| Hourly.SequentialNoEarlyRaise | Concurrent/download/single.py:69-71 | no fetch before the last one raised |
| Hourly.SequentialStops | Concurrent/download/single.py:69-71 | an exception escaped exactly when the last fetch raised, and without one every hour was fetched |
| Hourly.SingleScriptFetches | Concurrent/download/single.py:64-71 | `single.py` fetches the hours in order from the first, at most one per hour |
| Hourly.SingleScriptStops | Concurrent/download/single.py:43-71 | `single.py` dies only on the last hour it fetched, only with a `RequestException`, and otherwise fetches every hour |
| Paths.JoinPath | Concurrent/process/seismicPipeline.py:79 | POSIX `os.path.join(dir, name)`: an absolute name wins, otherwise a separator is added when missing; the result ends with the name |
| Paths.JoinKeepsSuffix | Concurrent/process/test_part2.py:30-31 | a joined path ends with whatever the file name ends with |
| Triggers.Join | Concurrent/process/seismicPipeline.py:96 | the `', '`-join is empty exactly when the detector found no pair |
| Triggers.ParsePairText | Concurrent/process/seismicPipeline.py:96 | `str()` of one (onset, offset) pair, padded to a common width, reads back to the pair |
| Triggers.ParseJoin | Concurrent/process/seismicPipeline.py:94-96 | the `Trigger_Times` text reads back to exactly the detector's pairs, in order |
| Ledger.WellFormedHeaderOnce | Concurrent/process/test_part2.py:14-26 | a well-formed ledger holds exactly one header, on its first line |
| Ledger.OpenForAppend | Concurrent/process/seismicPipeline.py:69-75 | opening for append writes the header exactly when the file was absent and keeps an existing file's lines |
| Ledger.RowFor | Concurrent/process/seismicPipeline.py:93-106 | a row's `Number_of_Triggers` is the number of detector pairs, and its `Trigger_Times` reads back to those pairs |
| Ledger.AnyOnDayIff | Concurrent/process/seismicPipeline.py:32-35 | the scan finds a day exactly when some data line starts on it |
| Ledger.IsProcessed | Concurrent/process/seismicPipeline.py:27-30 | without a ledger file no day counts as processed |
| Ledger.ProcessedIff | Concurrent/process/seismicPipeline.py:27-35 | a day counts as processed exactly when the ledger exists and some row starts on that day |
| Ledger.ProcessedIffSameDate | Concurrent/process/seismicPipeline.py:32-35 | the query compares calendar dates only: some row's start has the same year, month and day |
| Ledger.ProcessedPersists | Concurrent/process/seismicPipeline.py:71 | appending to the ledger never makes a processed day unprocessed |
| Ledger.AppendMarksDay | Concurrent/process/seismicPipeline.py:99-106 | after a row is appended, every instant of its start day counts as processed |
| Process.StepFile | Concurrent/process/seismicPipeline.py:77-108 | a name is ignored exactly when it does not end in `.SAC`; a `.SAC` entry fails to read, holds no trace, fails detection, or writes a row exactly in the corresponding case of its read and detection; a written row comes from a readable, non-empty stream whose first trace gives station and times, holds the detector's pair count and a text reading back to its pairs, and names the file bare (monthly) or by its joined path (`test_part2.py`) |
| Process.MapSteps | Concurrent/process/seismicPipeline.py:77 | the loop takes one step per listing entry, in listing order; what the steps append is stated by `Process.AppendsWritten` |
| Process.Steps | Concurrent/process/test_part2.py:29-75 | the loop body applied to each entry of the listing; what the steps append is stated by `Process.AppendsWritten` |
| Process.StepsGood | Concurrent/process/seismicPipeline.py:77-106 | every row the loop writes names a `.SAC` file and is consistent |
| Process.Entries | Concurrent/process/test_part2.py:29-80 | the loop only appends, at most one line per entry, every appended line a good row; the monthly copy never dies; the standalone copy dies only while `trace` is unbound, having appended nothing |
| Process.ProcessFolder | Concurrent/process/seismicPipeline.py:67-108 | a folder run leaves a well-formed ledger that extends the old one, starting with the header when it was absent, with only good rows added; unless it died it holds exactly the opened ledger followed by the rows of the writing entries; the monthly copy never dies |
| Process.AppendsWritten | Concurrent/process/test_part2.py:29-80 | unless `test_part2.py` died, the loop appends exactly the rows of the writing entries, in listing order, and nothing else; the monthly copy always does |
| Process.IgnoredPlayNoPart | Concurrent/process/test_part2.py:29-30 | entries not ending in `.SAC` do not affect the loop |
| Process.SacOnly | Concurrent/process/test_part2.py:30 | a name is kept exactly when it is an entry ending in `.SAC`; every kept name ends in `.SAC`, and the order of the listing is kept |
| Process.OnlySacFilesCount | Concurrent/process/seismicPipeline.py:77-78 | a folder run gives the same result as a run over its `.SAC` entries alone |
| Process.EmptyStreamSkipped | Concurrent/process/test_part2.py:38-40 | a file whose stream has no trace writes no row and leaves the loop as it was |
| Process.StandaloneHaltsIff | Concurrent/process/test_part2.py:33-80 | `test_part2.py` dies exactly when a read fails while every earlier entry was ignored or empty, since its handler then reads an unbound `trace` |
| Process.ProcessBatches | Concurrent/process/test_part2.py:14-26 | repeated runs keep a well-formed ledger well formed and always leave a file |
| Process.HeaderOnceAcrossRuns | Concurrent/process/seismicPipeline.py:69-75 | however many runs append to a ledger that starts absent, it holds exactly one header, on its first line |
| Pipeline.MonthFolder | Concurrent/process/seismicPipeline.py:23-25 | the month folder path is `./seismic_data/` followed by the `%Y-%m` text of the date |
| Pipeline.MonthFolderIdentifiesMonth | Concurrent/process/seismicPipeline.py:23-25 | two dates share a month folder exactly when they share year and month |
| Pipeline.DailyQuery | Concurrent/process/seismicPipeline.py:44-53 | the daily request is for network TX, station PB28, channel HHZ in `sac.zip` format, with start and end texts reading back to the day and the day after |
| Pipeline.AddNames | Concurrent/process/seismicPipeline.py:58-59 | extraction keeps every file the folder held |
| Pipeline.AddNamesContents | Concurrent/process/seismicPipeline.py:58-59 | after extraction the folder holds exactly its old names and the archive's names |
| Pipeline.AddNamesNoDuplicates | Concurrent/process/seismicPipeline.py:58-59 | extraction never lists a name twice |
| Pipeline.DayVisit | Concurrent/process/seismicPipeline.py:41-63 | a day is requested exactly when it is not processed, and the request ends as the single unretried fetch; what the whole loop requests is stated by `Pipeline.DownloadMonthFacts` |
| Pipeline.DownloadDays | Concurrent/process/seismicPipeline.py:37-65 | the download loop sends at most one request per day and only adds files to the folder |
| Pipeline.DownloadNoDuplicates | Concurrent/process/seismicPipeline.py:37-65 | the month folder never lists a file twice |
| Pipeline.DownloadOnlySent | Concurrent/process/seismicPipeline.py:39-65 | only days of the walk that are not skipped are requested |
| Pipeline.DownloadAllSent | Concurrent/process/seismicPipeline.py:39-65 | unless an exception ended the script, every day of the walk that is not skipped is requested |
| Pipeline.DownloadAscending | Concurrent/process/seismicPipeline.py:39-65 | requests go out in the walk's increasing order |
| Pipeline.DownloadCrashIsLast | Concurrent/process/seismicPipeline.py:55-63 | the script dies in the download loop only on its last request, one whose exception escaped |
| Pipeline.DownloadFolderContents | Concurrent/process/seismicPipeline.py:55-59 | the folder holds the names it held plus the archive names of the successful requests, and nothing else |
| Pipeline.DownloadMonthFacts | Concurrent/process/seismicPipeline.py:37-65 | the download loop requests exactly the walk's days missing from the ledger (all of them unless it dies), in order, into a folder without duplicates holding exactly the successful archives; it dies only on a 200 without a zip body, on its last request |
| Pipeline.DayWalk | Concurrent/process/seismicPipeline.py:39-65 | the walk visits `start + k days`, strictly ascending, all in `[start, end)`, and stops only once the next day reaches end |
| Pipeline.StrideDays | Concurrent/process/seismicPipeline.py:39-40 | a walk over n whole days visits n days |
| Pipeline.MonthDaysCount | Concurrent/process/seismicPipeline.py:141 | from the first of a month to the first of the next the walk visits as many days as the month has |
| Pipeline.MonthDaysShape | Concurrent/process/seismicPipeline.py:141 | the walk visits each calendar day of the month once, at the time of day of the month's first |
| Pipeline.RunMonthRequests | Concurrent/process/seismicPipeline.py:131-149 | one month requests exactly its days missing from the ledger (up to a crash), in increasing order, all within the month |
| Pipeline.RunMonthLedger | Concurrent/process/seismicPipeline.py:131-149 | one month leaves the ledger untouched on a crash, and otherwise creates or extends it, keeping it well formed, with exactly the rows of the files downloaded into the month folder appended in folder order |
| Pipeline.RunMonths | Concurrent/process/seismicPipeline.py:129-149 | the month loop ends on a first of a month after the end date unless it died; it runs no month exactly when it starts after the end date |
| Pipeline.RunMonthsVisits | Concurrent/process/seismicPipeline.py:131-149 | the loop runs the body for firsts of months not after the end date, each the first of the month after the one before |
| Pipeline.RunMonthsStops | Concurrent/process/seismicPipeline.py:131-149 | without a crash the loop ends on the first of the month just after the last month it ran |
| Pipeline.RunMonthsConsecutive | Concurrent/process/seismicPipeline.py:131-149 | consecutive months of the run are consecutive calendar months, each reached by the script's own 32-day step |
| Pipeline.MonthBodySteps | Concurrent/process/seismicPipeline.py:133-147 | each month only appends to the ledger and only requests days of that month that are missing from the ledger, in order |
| Pipeline.RunMonthsKeepsLedger | Concurrent/process/seismicPipeline.py:131-149 | the ledger only grows over the run and stays well formed |
| Pipeline.RunMonthsRequests | Concurrent/process/seismicPipeline.py:131-149 | no day already in the starting ledger is requested, every request lies between the first month and 31 days after the end date, and requests strictly increase, so no day is requested twice |
| Pipeline.RunMonthsComplete | Concurrent/process/seismicPipeline.py:131-149 | unless the script died, every day of every month the loop ran was requested or is recorded in the final ledger |
| Pipeline.JoinRequests | Concurrent/process/seismicPipeline.py:141-149 | the requests of one month followed by those of later months stay pending in the first ledger and ascending |
| Pipeline.NextWithinMonth | Concurrent/process/seismicPipeline.py:132 | the next month's first has month index one more and lies after this first, by at most 31 days |
| Pipeline.NeverUnprocessed | Concurrent/process/seismicPipeline.py:71 | a processed day stays processed in any extension of the ledger |
| Pipeline.ScriptRun | Concurrent/process/seismicPipeline.py:126-149 | the script's own run from 2021-09-01 to 2025-02-25 runs at least September 2021, and requests only days missing from the starting ledger, none before the start date and none 31 days or more after the end date |
| Pipeline.RunPipeline | Concurrent/process/seismicPipeline.py:126-149 | the script, started at the first of the start month, never requests a day already in the starting ledger, and unless it died every day of each month it ran was requested or is in the final ledger; the months it ran are consecutive firsts of months not after the end date, and unless it died it ends on a first after the end date |

## Left out

- HTTP, timeouts and sleeping are left out. `requests.get` becomes a given stream of replies per request window, and `time.sleep(5)` is counted in `Run.backoff`, not performed. In `seismicPipeline.py` and `test.py` the `timeout=30` parameter turns a hung request into a `RequestException`, which is one of the modelled replies. `downloader2.py` and `single.py` call `requests.get` without a timeout, so a server that stalls hangs them for ever; the model gives every request a reply and does not model such a hang.
- Zip extraction and the filesystem are not modelled: `zipfile`, `extractall` beyond the list of names it adds, `os.makedirs`, `shutil.rmtree` and `os.listdir`. A folder listing is a given sequence of names. The month folder is always fresh, so the model starts each month with an empty folder. The order in which `extractall` lists new names is taken to be archive order.
- ObsPy's `read`, `highpass`, `classic_sta_lta` and `trigger_onset` are given functions (`Process.Reader`, `Process.Detector`). They are foreign code and floating-point signal processing.
- pandas' CSV reading in `check_if_already_processed` is modelled only through the date of each row's `Start_Time`. The textual form of `Start_Time` in the CSV (ObsPy's `UTCDateTime` string) is not modelled.
- The worker pools are not modelled as processes. `Pool.map` is modelled by its batches, each run in order until an exception, and `map` is taken to wait for every batch before it re-raises, as CPython 3.8 and later do. `apply_async` is modelled as one fetch per hour. Which process runs which batch, and in what order the hours finish, are not modelled.
- Hourly.SilentSameHoursAsTagged: compares the request counts hour by hour only when `test.py` raised nothing, because a raise in `test.py` abandons the rest of its batch and the two lists of fetches then no longer line up.
- The tagged result strings of `test.py` and every printed message are left out. Outcomes are a datatype instead.
- `generate_monthly_plot` and the analysis script are not part of this model. They aggregate with pandas and draw with matplotlib.
- The microseconds of `datetime` are left out. Every date-time the scripts build is a whole second.
- `datetime`'s upper year bound (9999) and the `OverflowError` past it are left out. Instants are unbounded. The text round trips are stated for years up to 9999.
- `%Y` for years below 1000 is left out. Python's zero padding of `%Y` is platform-dependent. The model pads to four digits, and no date the scripts use is affected.
- The per-script constants are modelled only where a contract uses them: the TX.PB28.HHZ request fields (`Pipeline.DailyQuery`), the data folder (`Pipeline.MonthFolder`), and the pipeline's start and end dates (`Pipeline.ScriptRun`). The service URLs, the BEG station source of `single.py`, the download folders and the fixed dates of the hourly scripts are not modelled: the server is a given function, and each hourly script is stated for any range.
- Hourly.Sequential: states only that at most one fetch is made per hour, and one at least; which fetches, and where it stops, are stated by `Hourly.SequentialIsPrefix`, `Hourly.SequentialNoEarlyRaise` and `Hourly.SequentialStops`.
- Fetch.Fetch: states only the bounds on the request count; the outcome is stated by `Fetch.Loop` and the lemmas about it.

=== FILE: chunks.dfy ===
/** Partitioning a time range into fixed-length request windows: the list
    comprehension of `test.py` and the `while current_time <= end_date` loops
    of `downloader2.py` and `single.py` (hours), and the day walk of the
    monthly pipeline. */
module Chunks {
  import opened Civil

  const Hour: nat := SecondsPerHour
  const Day: nat := SecondsPerDay

  /** The half-open request window `[start, end)`. */
  datatype Window = Window(start: Instant, end: Instant)

  /** The window of length `span` opening at `t`. */
  function WindowAt(t: Instant, span: nat): (w: Window)
    ensures w.start == t && w.end - w.start == span
  {
    Window(t, t + span)
  }

  /** The start times `t, t + step, t + 2*step, ...` that stay below `limit`:
      the sequence visited by `while t < limit: ...; t += step`. */
  function Stride(t: Instant, limit: int, step: nat): (ts: seq<Instant>)
    requires step > 0
    ensures forall k :: 0 <= k < |ts| ==> ts[k] == t + k * step
    ensures |ts| > 0 ==> ts[|ts| - 1] < limit
    ensures t + |ts| * step >= limit
    decreases if t < limit then limit - t else 0
  {
    if t < limit then [t] + Stride(t + step, limit, step) else []
  }

  /** The stride is ascending, so every visited start lies below the limit. */
  lemma StrideBelow(t: Instant, limit: int, step: nat, k: int)
    requires step > 0 && 0 <= k < |Stride(t, limit, step)|
    ensures t <= Stride(t, limit, step)[k] < limit
  {
    var ts := Stride(t, limit, step);
    var n := |ts|;
    assert ts[k] == t + k * step && ts[n - 1] == t + (n - 1) * step;
    MulLe(k, n - 1, step);
  }

  lemma MulLe(a: int, b: int, c: nat)
    requires 0 <= a <= b
    ensures 0 <= a * c <= b * c
  {
    assert b * c == a * c + (b - a) * c;
  }

  /** Python's `int()` applied to the quotient `a / b` for `b > 0`: the
      quotient truncated toward zero, not floored. */
  function TruncDiv(a: int, b: int): (q: int)
    requires b > 0
    ensures a >= 0 ==> q * b <= a < (q + 1) * b
    ensures a < 0 ==> (q - 1) * b < a <= q * b
  {
    if a >= 0 then a / b else -((-a) / b)
  }

  /** `[start + i*step for i in range(int((end - start) / step) + 1)]` (test.py). */
  function RangeStarts(start: Instant, end: Instant, step: nat): (ts: seq<Instant>)
    requires step > 0
  {
    var n := TruncDiv(end - start, step) + 1;
    if n <= 0 then [] else seq(n, k requires 0 <= k < n => start + k * step)
  }

  /** `t = start; while t <= end: ...; t += 1h` (downloader2.py and single.py).
      Instants are whole seconds, so `t <= end` is `t < end + 1`. */
  function HourlyStarts(start: Instant, end: Instant): (ts: seq<Instant>)
    ensures forall k :: 0 <= k < |ts| ==> ts[k] == start + k * Hour && ts[k] <= end
    ensures |ts| > 0 <==> start <= end
    ensures start + |ts| * Hour > end
  {
    var ts := Stride(start, end + 1, Hour);
    forall k | 0 <= k < |ts| ensures ts[k] <= end {
      StrideBelow(start, end + 1, Hour, k);
    }
    ts
  }

  /** The chunk starts of `test.py` are `start + k*1h` for
      `k = 0 .. floor((end - start)/1h)`: ascending from `start`, none past `end`. */
  lemma RangeStartsShape(start: Instant, end: Instant)
    requires start <= end
    ensures var ts := RangeStarts(start, end, Hour);
      && |ts| == (end - start) / Hour + 1
      && ts[0] == start
      && (forall k :: 0 <= k < |ts| ==> ts[k] == start + k * Hour && ts[k] <= end)
      && (forall j, k :: 0 <= j < k < |ts| ==> ts[j] < ts[k])
  {
    var ts := RangeStarts(start, end, Hour);
    var q := (end - start) / Hour;
    forall k | 0 <= k < |ts| ensures ts[k] <= end {
      assert k * Hour <= q * Hour;
    }
  }

  /** The list comprehension and the while loop enumerate the same hours
      whenever the range is not reversed. */
  lemma {:induction false} RangeMatchesWhile(start: Instant, end: Instant)
    requires start <= end
    ensures RangeStarts(start, end, Hour) == HourlyStarts(start, end)
  {
    var a := RangeStarts(start, end, Hour);
    var b := HourlyStarts(start, end);
    var q := (end - start) / Hour;
    var n := |b|;
    assert n > 0;
    assert b[n - 1] == start + (n - 1) * Hour <= end;
    assert start + n * Hour >= end + 1;
    assert q * Hour <= end - start < (q + 1) * Hour;
    assert n - 1 == q;
    assert |a| == |b|;
  }

  /** The two enumerations part only on a range reversed by less than an hour:
      truncation toward zero still yields one chunk, the loop none. */
  lemma RangeDiffersOnShortReversal(start: Instant, end: Instant)
    requires end < start < end + Hour
    ensures RangeStarts(start, end, Hour) == [start]
    ensures HourlyStarts(start, end) == []
  {
    assert TruncDiv(end - start, Hour) == 0;
  }

  /** The request windows `[t, t + span)` of a list of chunk starts. */
  function Windows(ts: seq<Instant>, span: nat): (ws: seq<Window>)
    ensures |ws| == |ts|
    ensures forall k :: 0 <= k < |ts| ==> ws[k] == WindowAt(ts[k], span)
  {
    seq(|ts|, k requires 0 <= k < |ts| => WindowAt(ts[k], span))
  }

  /** Consecutive hourly windows abut: each ends exactly where the next starts,
      so there is neither gap nor overlap. */
  lemma WindowsAbut(start: Instant, end: Instant, k: int)
    requires 0 <= k < |HourlyStarts(start, end)| - 1
    ensures Windows(HourlyStarts(start, end), Hour)[k].end == Windows(HourlyStarts(start, end), Hour)[k + 1].start
  {
  }

  /** Every instant of `[start, end]` lies in exactly one hourly window, and
      the last window runs past `end`: it is not clipped to the range. */
  lemma WindowsCover(start: Instant, end: Instant, x: Instant)
    requires start <= x <= end
    ensures var ws := Windows(HourlyStarts(start, end), Hour);
      && (exists k :: 0 <= k < |ws| && ws[k].start <= x < ws[k].end)
      && (forall j, k :: 0 <= j < |ws| && 0 <= k < |ws| && ws[j].start <= x < ws[j].end && ws[k].start <= x < ws[k].end ==> j == k)
      && ws[|ws| - 1].end > end
  {
    var ts := HourlyStarts(start, end);
    var ws := Windows(ts, Hour);
    var n := |ts|;
    assert start + n * Hour >= end + 1;
    var k := (x - start) / Hour;
    assert k * Hour <= x - start < (k + 1) * Hour;
    assert k < n;
    assert ws[k].start <= x < ws[k].end;
    forall j, i | 0 <= j < n && 0 <= i < n && ws[j].start <= x < ws[j].end && ws[i].start <= x < ws[i].end
      ensures j == i
    {
      assert ws[j].start == start + j * Hour && ws[i].start == start + i * Hour;
    }
  }
}

=== FILE: civil.dfy ===
/** Naive civil date-times on the proleptic Gregorian calendar, as Python's
    `datetime` represents them, and their bijection with whole seconds counted
    from 0001-01-01T00:00:00. `datetime + timedelta` is arithmetic on that
    count, `.date()` is the day part of it, and `replace(day=1)` is a field
    update on the civil record. */
module Civil {

  const SecondsPerMinute: nat := 60
  const SecondsPerHour: nat := 3600
  const SecondsPerDay: nat := 86400

  /** Whole seconds since 0001-01-01T00:00:00. */
  type Instant = nat

  predicate IsLeap(y: int) {
    y % 4 == 0 && (y % 100 != 0 || y % 400 == 0)
  }

  function DaysInYear(y: int): nat {
    if IsLeap(y) then 366 else 365
  }

  function DaysInMonth(y: int, m: int): (n: nat)
    requires 1 <= m <= 12
    ensures 28 <= n <= 31
  {
    if m == 2 then (if IsLeap(y) then 29 else 28)
    else if m == 4 || m == 6 || m == 9 || m == 11 then 30
    else 31
  }

  /** Days of year `y` before the first of month `m`; month 13 stands for the
      end of the year. */
  function DaysBeforeMonth(y: int, m: int): nat
    requires 1 <= m <= 13
  {
    [0, 31, 59, 90, 120, 151, 181, 212, 243, 273, 304, 334, 365][m - 1]
      + (if m > 2 && IsLeap(y) then 1 else 0)
  }

  lemma DaysBeforeMonthStep(y: int, m: int)
    requires 1 <= m <= 12
    ensures DaysBeforeMonth(y, m + 1) == DaysBeforeMonth(y, m) + DaysInMonth(y, m)
    ensures DaysBeforeMonth(y, 13) == DaysInYear(y)
  {
  }

  lemma DaysBeforeMonthMonotone(y: int, m1: int, m2: int)
    requires 1 <= m1 < m2 <= 13
    ensures DaysBeforeMonth(y, m1) + DaysInMonth(y, m1) <= DaysBeforeMonth(y, m2)
  {
  }

  /** Days in the years before year `y`, in closed form. */
  function DaysBeforeYear(y: int): nat
    requires y >= 1
  {
    var p := y - 1;
    p * 365 + p / 4 - p / 100 + p / 400
  }

  lemma QuotientStep(q: int, k: int)
    requires q >= 1 && (k == 4 || k == 100 || k == 400)
    ensures q / k - (q - 1) / k == (if q % k == 0 then 1 else 0)
  {
    if k == 4 {
    } else if k == 100 {
    } else {
    }
  }

  lemma DaysBeforeYearStep(y: int)
    requires y >= 1
    ensures DaysBeforeYear(y + 1) == DaysBeforeYear(y) + DaysInYear(y)
  {
    QuotientStep(y, 4);
    QuotientStep(y, 100);
    QuotientStep(y, 400);
    if y % 400 == 0 {
      assert y % 100 == 0 && y % 4 == 0;
    } else if y % 100 == 0 {
      assert y % 4 == 0;
    }
  }

  lemma {:induction false} DaysBeforeYearGrows(y0: int, y: int)
    requires 1 <= y0 <= y
    ensures DaysBeforeYear(y0) <= DaysBeforeYear(y)
    ensures y0 < y ==> DaysBeforeYear(y0) + DaysInYear(y0) <= DaysBeforeYear(y)
    decreases y - y0
  {
    if y0 < y {
      DaysBeforeYearStep(y0);
      DaysBeforeYearGrows(y0 + 1, y);
    }
  }

  /** Finds the year holding day `n` counted from the first of year `y`, and
      the day's zero-based position within it. */
  function YearSplit(n: nat, y: int): (r: (int, nat))
    requires y >= 1
    ensures y <= r.0 && r.1 < DaysInYear(r.0)
    ensures DaysBeforeYear(r.0) + r.1 == DaysBeforeYear(y) + n
    decreases n
  {
    if n < DaysInYear(y) then (y, n)
    else
      DaysBeforeYearStep(y);
      YearSplit(n - DaysInYear(y), y + 1)
  }

  /** Finds the month of year `y` holding zero-based day-of-year `k`,
      searching from month `m` on. */
  function MonthSplit(k: nat, y: int, m: int): (r: int)
    requires 1 <= m <= 12
    requires DaysBeforeMonth(y, m) <= k < DaysInYear(y)
    ensures m <= r <= 12
    ensures DaysBeforeMonth(y, r) <= k < DaysBeforeMonth(y, r) + DaysInMonth(y, r)
    decreases 12 - m
  {
    DaysBeforeMonthStep(y, m);
    if k < DaysBeforeMonth(y, m) + DaysInMonth(y, m) then m
    else MonthSplit(k, y, m + 1)
  }

  datatype DateTime = DateTime(year: int, month: int, day: int, hour: int, minute: int, second: int)

  predicate Valid(dt: DateTime) {
    && 1 <= dt.year
    && 1 <= dt.month <= 12
    && 1 <= dt.day <= DaysInMonth(dt.year, dt.month)
    && 0 <= dt.hour < 24
    && 0 <= dt.minute < 60
    && 0 <= dt.second < 60
  }

  /** Zero-based day number of a civil date (Python's `toordinal() - 1`). */
  function DayNumber(y: int, m: int, d: int): nat
    requires 1 <= y && 1 <= m <= 12 && 1 <= d
  {
    DaysBeforeYear(y) + DaysBeforeMonth(y, m) + d - 1
  }

  function SecondOfDay(dt: DateTime): (s: nat)
    requires Valid(dt)
    ensures s < SecondsPerDay
  {
    dt.hour * SecondsPerHour + dt.minute * SecondsPerMinute + dt.second
  }

  function ToInstant(dt: DateTime): Instant
    requires Valid(dt)
  {
    DayNumber(dt.year, dt.month, dt.day) * SecondsPerDay + SecondOfDay(dt)
  }

  function FromInstant(t: Instant): (dt: DateTime)
    ensures Valid(dt)
  {
    var days := t / SecondsPerDay;
    var secs := t % SecondsPerDay;
    var (y, k) := YearSplit(days, 1);
    DaysBeforeMonthStep(y, 1);
    var m := MonthSplit(k, y, 1);
    DateTime(y, m, k - DaysBeforeMonth(y, m) + 1,
             secs / SecondsPerHour, (secs % SecondsPerHour) / SecondsPerMinute, secs % SecondsPerMinute)
  }

  /** The calendar date of an instant, as a day number (`datetime.date()`). */
  function DayOf(t: Instant): nat {
    t / SecondsPerDay
  }

  lemma {:induction false} YearSplitOf(y0: int, y: int, k: nat)
    requires 1 <= y0 <= y && k < DaysInYear(y)
    ensures DaysBeforeYear(y0) <= DaysBeforeYear(y)
    ensures YearSplit(DaysBeforeYear(y) - DaysBeforeYear(y0) + k, y0) == (y, k)
    decreases y - y0
  {
    DaysBeforeYearGrows(y0, y);
    var n := DaysBeforeYear(y) - DaysBeforeYear(y0) + k;
    if y0 < y {
      DaysBeforeYearStep(y0);
      YearSplitOf(y0 + 1, y, k);
      var m := DaysBeforeYear(y) - DaysBeforeYear(y0 + 1) + k;
      assert YearSplit(m, y0 + 1) == (y, k);
      assert n - DaysInYear(y0) == m;
      YearSplitSkip(n, y0);
      assert YearSplit(n, y0) == (y, k);
    } else {
      assert n == k;
      assert YearSplit(k, y) == (y, k);
    }
  }

  /** A day past the end of year `y` is looked for from the next year on. */
  lemma YearSplitSkip(n: nat, y: int)
    requires y >= 1 && n >= DaysInYear(y)
    ensures YearSplit(n, y) == YearSplit(n - DaysInYear(y), y + 1)
  {
  }

  lemma MonthSplitOf(y: int, m: int, k: nat)
    requires 1 <= m <= 12
    requires DaysBeforeMonth(y, m) <= k < DaysBeforeMonth(y, m) + DaysInMonth(y, m)
    ensures k < DaysInYear(y)
    ensures MonthSplit(k, y, 1) == m
  {
    DaysBeforeMonthStep(y, 1);
    if m < 12 {
      DaysBeforeMonthMonotone(y, m, 13);
    } else {
      DaysBeforeMonthStep(y, 12);
    }
    var r := MonthSplit(k, y, 1);
    if r < m {
      DaysBeforeMonthMonotone(y, r, m);
    } else if m < r {
      DaysBeforeMonthMonotone(y, m, r);
    }
  }

  lemma SecondOfDaySplit(dt: DateTime)
    requires Valid(dt)
    ensures SecondOfDay(dt) / SecondsPerHour == dt.hour
    ensures (SecondOfDay(dt) % SecondsPerHour) / SecondsPerMinute == dt.minute
    ensures SecondOfDay(dt) % SecondsPerMinute == dt.second
  {
    var s := SecondOfDay(dt);
    var rest := dt.minute * 60 + dt.second;
    assert 0 <= rest < 3600;
    assert s == dt.hour * 3600 + rest;
    assert s % 3600 == rest;
    assert s / 3600 == dt.hour;
    assert rest / 60 == dt.minute;
    assert s == (dt.hour * 60 + dt.minute) * 60 + dt.second;
  }

  /** Reading a valid civil date-time back from its instant gives it back. */
  lemma FromToInstant(dt: DateTime)
    requires Valid(dt)
    ensures FromInstant(ToInstant(dt)) == dt
  {
    var t := ToInstant(dt);
    var dn := DayNumber(dt.year, dt.month, dt.day);
    var sod := SecondOfDay(dt);
    assert t / SecondsPerDay == dn && t % SecondsPerDay == sod;
    DaysBeforeMonthStep(dt.year, dt.month);
    DaysBeforeMonthMonotone(dt.year, 1, 13);
    DaysBeforeMonthStep(dt.year, 12);
    var k := DaysBeforeMonth(dt.year, dt.month) + dt.day - 1;
    MonthSplitOf(dt.year, dt.month, k);
    YearSplitOf(1, dt.year, k);
    assert YearSplit(dn, 1) == (dt.year, k);
    SecondOfDaySplit(dt);
  }

  /** Every instant is the instant of the civil date-time read from it. */
  lemma ToFromInstant(t: Instant)
    ensures ToInstant(FromInstant(t)) == t
  {
    var dt := FromInstant(t);
    var days := t / SecondsPerDay;
    var secs := t % SecondsPerDay;
    var (y, k) := YearSplit(days, 1);
    assert DayNumber(dt.year, dt.month, dt.day) == days;
    assert secs == (secs / 3600) * 3600 + ((secs % 3600) / 60) * 60 + secs % 60;
    assert SecondOfDay(dt) == secs;
  }

  /** Distinct valid date-times have distinct instants. */
  lemma ToInstantInjective(a: DateTime, b: DateTime)
    requires Valid(a) && Valid(b)
    ensures ToInstant(a) == ToInstant(b) <==> a == b
  {
    if ToInstant(a) == ToInstant(b) {
      FromToInstant(a);
      FromToInstant(b);
    }
  }

  /** Two instants share a calendar date exactly when their civil year, month
      and day agree: the time of day plays no part. */
  lemma SameDayIffSameDate(a: Instant, b: Instant)
    ensures DayOf(a) == DayOf(b) <==>
      (FromInstant(a).year, FromInstant(a).month, FromInstant(a).day)
        == (FromInstant(b).year, FromInstant(b).month, FromInstant(b).day)
  {
    var da := FromInstant(a);
    var db := FromInstant(b);
    ToFromInstant(a);
    ToFromInstant(b);
    assert DayOf(a) == DayNumber(da.year, da.month, da.day);
    assert DayOf(b) == DayNumber(db.year, db.month, db.day);
    if DayOf(a) == DayOf(b) {
      var ma := DateTime(da.year, da.month, da.day, 0, 0, 0);
      var mb := DateTime(db.year, db.month, db.day, 0, 0, 0);
      assert ToInstant(ma) == ToInstant(mb);
      ToInstantInjective(ma, mb);
    }
  }

  /** `dt + timedelta(seconds=s)`. */
  function AddSeconds(dt: DateTime, s: nat): (r: DateTime)
    requires Valid(dt)
    ensures Valid(r)
  {
    FromInstant(Later(ToInstant(dt), s))
  }

  /** The instant `s` seconds after `t`. */
  function Later(t: Instant, s: nat): Instant {
    t + s
  }

  /** The month after (y, m), wrapping December to January of the next year. */
  function NextMonth(y: int, m: int): (r: (int, int))
    requires 1 <= m <= 12
    ensures 1 <= r.1 <= 12
    ensures r.0 * 12 + r.1 == y * 12 + m + 1
  {
    if m == 12 then (y + 1, 1) else (y, m + 1)
  }

  /** The step of the month loop: `(current_month + timedelta(days=32)).replace(day=1)`. */
  function MonthStep(dt: DateTime): (r: DateTime)
    requires Valid(dt)
    ensures Valid(r)
  {
    AddSeconds(dt, 32 * SecondsPerDay).(day := 1)
  }

  /** The first of the next month comes `DaysInMonth` days after the first of this one. */
  lemma FirstOfNextMonth(y: int, m: int)
    requires 1 <= y && 1 <= m <= 12
    ensures NextMonth(y, m).0 >= 1
    ensures DayNumber(NextMonth(y, m).0, NextMonth(y, m).1, 1) == DayNumber(y, m, 1) + DaysInMonth(y, m)
  {
    DaysBeforeMonthStep(y, m);
    if m == 12 {
      DaysBeforeYearStep(y);
    }
  }

  /** The first of the month after that of `dt`, at the time of day of `dt`. */
  function FirstOfNext(dt: DateTime): (r: DateTime)
    requires Valid(dt)
    ensures Valid(r) && r.day == 1
    ensures r.year * 12 + r.month == dt.year * 12 + dt.month + 1
    ensures (r.hour, r.minute, r.second) == (dt.hour, dt.minute, dt.second)
    ensures dt.day == 1 ==> ToInstant(r) == ToInstant(dt) + DaysInMonth(dt.year, dt.month) * SecondsPerDay
  {
    var (ny, nm) := NextMonth(dt.year, dt.month);
    FirstOfNextMonth(dt.year, dt.month);
    var r := DateTime(ny, nm, 1, dt.hour, dt.minute, dt.second);
    var d0 := DayNumber(dt.year, dt.month, 1);
    assert (d0 + DaysInMonth(dt.year, dt.month)) * SecondsPerDay == d0 * SecondsPerDay + DaysInMonth(dt.year, dt.month) * SecondsPerDay;
    r
  }

  /** From the first of a month, the month step lands on the first of the
      following month at the same time of day, December included and
      whatever the length of February. */
  lemma MonthStepFromFirst(dt: DateTime)
    requires Valid(dt) && dt.day == 1
    ensures MonthStep(dt) == FirstOfNext(dt)
  {
    var (ny, nm) := NextMonth(dt.year, dt.month);
    var landing := DateTime(ny, nm, 33 - DaysInMonth(dt.year, dt.month), dt.hour, dt.minute, dt.second);
    LandingFromFirst(dt);
    assert MonthStep(dt) == landing.(day := 1);
  }

  /** 32 days after the first of a month is day `33 - DaysInMonth` of the next. */
  lemma LandingFromFirst(dt: DateTime)
    requires Valid(dt) && dt.day == 1
    ensures var (ny, nm) := NextMonth(dt.year, dt.month);
      AddSeconds(dt, 32 * SecondsPerDay) == DateTime(ny, nm, 33 - DaysInMonth(dt.year, dt.month), dt.hour, dt.minute, dt.second)
  {
    var (ny, nm) := NextMonth(dt.year, dt.month);
    var landing := DateTime(ny, nm, 33 - DaysInMonth(dt.year, dt.month), dt.hour, dt.minute, dt.second);
    LandingInstant(dt);
    AddSecondsLands(dt, 32 * SecondsPerDay, landing);
  }

  /** Adding seconds lands on the date-time whose instant is that many seconds later. */
  lemma AddSecondsLands(dt: DateTime, s: nat, target: DateTime)
    requires Valid(dt) && Valid(target) && ToInstant(target) == Later(ToInstant(dt), s)
    ensures AddSeconds(dt, s) == target
  {
    FromToInstant(target);
  }

  lemma LandingInstant(dt: DateTime)
    requires Valid(dt) && dt.day == 1
    ensures var (ny, nm) := NextMonth(dt.year, dt.month);
      var landing := DateTime(ny, nm, 33 - DaysInMonth(dt.year, dt.month), dt.hour, dt.minute, dt.second);
      Valid(landing) && ToInstant(landing) == Later(ToInstant(dt), 32 * SecondsPerDay)
  {
    FirstOfNextMonth(dt.year, dt.month);
  }

  /** The day step only lands on the next month from the first: from the 31st
      of January it skips February altogether, which is why the month loop
      starts at `replace(day=1)`. */
  lemma MonthStepFromLastDay(dt: DateTime)
    requires Valid(dt) && dt.month == 1 && dt.day == 31
    ensures MonthStep(dt).month == 3
  {
    var feb := DaysInMonth(dt.year, 2);
    var landing := DateTime(dt.year, 3, 32 - feb, dt.hour, dt.minute, dt.second);
    LastDayLanding(dt);
    AddSecondsLands(dt, 32 * SecondsPerDay, landing);
  }

  /** 32 days after the 31st of January is day `32 - DaysInMonth(February)` of March. */
  lemma LastDayLanding(dt: DateTime)
    requires Valid(dt) && dt.month == 1 && dt.day == 31
    ensures var landing := DateTime(dt.year, 3, 32 - DaysInMonth(dt.year, 2), dt.hour, dt.minute, dt.second);
      Valid(landing) && ToInstant(landing) == Later(ToInstant(dt), 32 * SecondsPerDay)
  {
    DaysBeforeMonthStep(dt.year, 1);
    DaysBeforeMonthStep(dt.year, 2);
  }
}

=== FILE: decimal.dfy ===
/** Decimal rendering and reading of natural numbers, as used by `strftime`
    field codes (fixed-width, zero-padded) and by Python's `str(int)`. */
module Decimal {

  predicate IsDigit(c: char) {
    '0' <= c <= '9'
  }

  predicate AllDigits(s: string) {
    forall i :: 0 <= i < |s| ==> IsDigit(s[i])
  }

  function Digit(d: nat): (c: char)
    requires d < 10
    ensures IsDigit(c)
  {
    "0123456789"[d]
  }

  function DigitValue(c: char): (d: nat)
    requires IsDigit(c)
    ensures d < 10
  {
    (c as int) - ('0' as int)
  }

  lemma DigitRoundTrip(d: nat, c: char)
    requires d < 10 && IsDigit(c)
    ensures DigitValue(Digit(d)) == d
    ensures Digit(DigitValue(c)) == c
  {
  }

  function Pow10(k: nat): (p: nat)
    ensures p >= 1
  {
    if k == 0 then 1 else 10 * Pow10(k - 1)
  }

  /** The value of a string of decimal digits, most significant first. */
  function Value(s: string): nat
    requires AllDigits(s)
  {
    if |s| == 0 then 0 else Value(s[..|s| - 1]) * 10 + DigitValue(s[|s| - 1])
  }

  /** Python's `str(n)` for a non-negative int: the shortest decimal form. */
  function Dec(n: nat): (s: string)
    ensures 1 <= |s| && AllDigits(s)
    ensures n < 10 <==> |s| == 1
  {
    if n < 10 then [Digit(n)] else Dec(n / 10) + [Digit(n % 10)]
  }

  /** The last `w` decimal digits of `n`, zero-padded on the left. */
  function Fixed(n: nat, w: nat): (s: string)
    ensures |s| == w && AllDigits(s)
  {
    if w == 0 then "" else Fixed(n / 10, w - 1) + [Digit(n % 10)]
  }

  /** A `strftime` numeric field: zero-padded to width `w`; a value too wide
      for the field is written in full. */
  function Pad(n: nat, w: nat): (s: string)
    ensures AllDigits(s)
    ensures n < Pow10(w) ==> |s| == w && Value(s) == n
  {
    if n < Pow10(w) then FixedValue(n, w); Fixed(n, w) else Dec(n)
  }

  lemma {:induction false} FixedValue(n: nat, w: nat)
    requires n < Pow10(w)
    ensures Value(Fixed(n, w)) == n
  {
    if w > 0 {
      var s := Fixed(n, w);
      assert s[..|s| - 1] == Fixed(n / 10, w - 1);
      FixedValue(n / 10, w - 1);
      DigitRoundTrip(n % 10, '0');
    }
  }

  /** Reading a digit string of width `w` and writing it back in `w` digits
      gives the same string: fixed-width fields have a unique form. */
  lemma {:induction false} FixedOfValue(s: string)
    requires AllDigits(s)
    ensures Fixed(Value(s), |s|) == s
  {
    if |s| > 0 {
      var init := s[..|s| - 1];
      var c := s[|s| - 1];
      FixedOfValue(init);
      DigitRoundTrip(0, c);
      assert Value(s) / 10 == Value(init);
      assert Value(s) % 10 == DigitValue(c);
      assert s == init + [c];
    }
  }

  lemma {:induction false} DecValue(n: nat)
    ensures Value(Dec(n)) == n
  {
    DigitRoundTrip(n % 10, '0');
    if n >= 10 {
      var s := Dec(n);
      assert s[..|s| - 1] == Dec(n / 10);
      DecValue(n / 10);
    }
  }

  /** The shortest form never starts with a zero, except for zero itself. */
  lemma {:induction false} DecNoLeadingZero(n: nat)
    ensures Dec(n)[0] == '0' <==> n == 0
  {
    if n >= 10 {
      DecNoLeadingZero(n / 10);
      assert Dec(n)[0] == Dec(n / 10)[0];
    }
  }

  /** A digit string of width `w` holds a value below `10^w`. */
  lemma {:induction false} ValueBound(s: string)
    requires AllDigits(s)
    ensures Value(s) < Pow10(|s|)
  {
    if |s| > 0 {
      ValueBound(s[..|s| - 1]);
    }
  }
}

=== FILE: fetch.dfy ===
/** Fetching one request window from the waveform service: the query
    parameters, the three retry loops of `download_and_extract_data` and the
    single unretried request of the monthly pipeline. The server is a given
    stream of replies; sleeping is counted, not performed. */
module Fetch {
  import opened Options
  import opened Civil
  import opened Stamp
  import opened Chunks

  /** What the server does with one request. */
  datatype Response =
    | Reply(status: int, validZip: bool) // an HTTP reply; `validZip`: its body opens as a zip archive
    | NetworkFailure                     // `requests.get` raised a RequestException (timeout, refused, ...)

  /** The replies the server would give to the first, second, ... request for one window. */
  type Replies = nat -> Response

  const Ok: int := 200
  const TooLarge: int := 413
  const MaxRetries: nat := 3
  const BackoffSeconds: nat := 5

  predicate IsTooLarge(r: Response) {
    r.Reply? && r.status == TooLarge
  }

  /** Exceptions that escape `download_and_extract_data`. */
  datatype Exception = BadZipFile | RequestException

  /** How the fetch of one window ends. */
  datatype Outcome =
    | Extracted             // 200 with a zip body, extracted into the download folder
    | Rejected(status: int) // any status other than 200 and 413: logged, never retried
    | Exhausted             // every allowed attempt answered 413
    | NetworkError          // a RequestException caught and reported
    | CorruptArchive        // a 200 whose body is not a zip, caught and logged
    | Raised(e: Exception)  // an exception left the function uncaught

  /** The three copies of the retry loop: `test.py` returns a tagged result
      and catches RequestException; `downloader2.py` catches nothing;
      `single.py` catches only BadZipFile. */
  datatype Variant = Tagged | Silent | ZipChecked

  datatype Step = Retry | Stop(outcome: Outcome)

  /** What one reply does to the loop of the given variant. */
  function Classify(v: Variant, r: Response): Step
  {
    match r
    case NetworkFailure =>
      if v == Tagged then Stop(NetworkError) else Stop(Raised(RequestException))
    case Reply(status, validZip) =>
      if status == Ok then
        if validZip then Stop(Extracted)
        else if v == ZipChecked then Stop(CorruptArchive)
        else Stop(Raised(BadZipFile))
      else if status == TooLarge then Retry
      else Stop(Rejected(status))
  }

  /** A finished fetch: how it ended, how many requests it sent and how many
      seconds it slept. */
  datatype Run = Run(outcome: Outcome, requests: nat, backoff: nat)

  /** The `while retries < max_retries` loop entered with `retries` 413
      replies already taken; request number `retries` is the next one sent. */
  function Loop(v: Variant, replies: Replies, retries: nat): (r: Run)
    requires retries <= MaxRetries
    ensures retries <= r.requests <= MaxRetries
    ensures forall i :: retries <= i < r.requests && (i < r.requests - 1 || r.outcome == Exhausted)
              ==> IsTooLarge(replies(i))
    ensures r.outcome == Exhausted <==> r.requests == MaxRetries && (retries == MaxRetries || IsTooLarge(replies(MaxRetries - 1)))
    ensures r.outcome != Exhausted ==> retries < r.requests && Classify(v, replies(r.requests - 1)) == Stop(r.outcome)
    ensures r.backoff == BackoffSeconds * (if r.outcome == Exhausted then r.requests else r.requests - 1)
    decreases MaxRetries - retries
  {
    if retries == MaxRetries then Run(Exhausted, retries, BackoffSeconds * retries)
    else
      match Classify(v, replies(retries))
      case Retry => Loop(v, replies, retries + 1)
      case Stop(o) => Run(o, retries + 1, BackoffSeconds * retries)
  }

  /** `download_and_extract_data(current_time)` for one variant. */
  function Fetch(v: Variant, replies: Replies): (r: Run)
    ensures 1 <= r.requests <= MaxRetries
  {
    Loop(v, replies, 0)
  }

  /** `test.py`: a network failure comes back as a tagged Error instead of
      escaping; only a corrupt archive escapes. */
  lemma TaggedOutcomes(replies: Replies)
    ensures var o := Fetch(Tagged, replies).outcome;
      o != CorruptArchive && (o.Raised? ==> o.e == BadZipFile)
  {
  }

  /** `downloader2.py`: nothing is caught, so a network failure or a corrupt
      archive escapes the worker. */
  lemma SilentOutcomes(replies: Replies)
    ensures var o := Fetch(Silent, replies).outcome;
      o != CorruptArchive && o != NetworkError
  {
  }

  /** `single.py`: a corrupt archive is logged and ends the loop; only a
      network failure escapes. */
  lemma ZipCheckedOutcomes(replies: Replies)
    ensures var o := Fetch(ZipChecked, replies).outcome;
      o != NetworkError && (o.Raised? ==> o.e == RequestException)
  {
  }

  /** Three 413 replies in a row use up every attempt, and only they do. */
  lemma ExhaustedIffThreeTooLarge(v: Variant, replies: Replies)
    ensures Fetch(v, replies).outcome == Exhausted <==>
      IsTooLarge(replies(0)) && IsTooLarge(replies(1)) && IsTooLarge(replies(2))
    ensures Fetch(v, replies).outcome == Exhausted ==> Fetch(v, replies) == Run(Exhausted, 3, 15)
  {
    var r := Fetch(v, replies);
    if r.outcome == Exhausted {
      assert IsTooLarge(replies(0)) && IsTooLarge(replies(1));
    }
  }

  /** The loop stops at the first reply that is not a 413: that reply alone
      decides the outcome, after `k` sleeps of five seconds. */
  lemma StopsAtFirstNonTooLarge(v: Variant, replies: Replies, k: nat)
    requires k < MaxRetries
    requires forall i :: 0 <= i < k ==> IsTooLarge(replies(i))
    requires !IsTooLarge(replies(k))
    ensures Fetch(v, replies) == Run(Classify(v, replies(k)).outcome, k + 1, BackoffSeconds * k)
  {
  }

  /** A 200 on the first request ends the fetch there, with no sleep. */
  lemma OkEndsAtOnce(v: Variant, replies: Replies)
    requires replies(0).Reply? && replies(0).status == Ok
    ensures Fetch(v, replies).requests == 1 && Fetch(v, replies).backoff == 0
    ensures Fetch(v, replies).outcome ==
      (if replies(0).validZip then Extracted
       else if v == ZipChecked then CorruptArchive
       else Raised(BadZipFile))
  {
    StopsAtFirstNonTooLarge(v, replies, 0);
  }

  /** A status other than 200 and 413 is reported with its code and never retried. */
  lemma OtherStatusNotRetried(v: Variant, replies: Replies, k: nat)
    requires k < MaxRetries
    requires forall i :: 0 <= i < k ==> IsTooLarge(replies(i))
    requires replies(k).Reply? && replies(k).status != Ok && replies(k).status != TooLarge
    ensures Fetch(v, replies) == Run(Rejected(replies(k).status), k + 1, BackoffSeconds * k)
  {
    StopsAtFirstNonTooLarge(v, replies, k);
  }

  /** In `test.py` a network failure ends the fetch with an Error at once,
      even after earlier 413 retries. */
  lemma TaggedNetworkErrorAfterRetries(replies: Replies, k: nat)
    requires k < MaxRetries
    requires forall i :: 0 <= i < k ==> IsTooLarge(replies(i))
    requires replies(k) == NetworkFailure
    ensures Fetch(Tagged, replies) == Run(NetworkError, k + 1, BackoffSeconds * k)
  {
    StopsAtFirstNonTooLarge(Tagged, replies, k);
  }

  /** The monthly pipeline's daily request: one attempt, no sleep, and a 413
      is reported like any other failed status. A corrupt archive escapes,
      since only RequestException is caught. */
  function FetchOnce(replies: Replies): (r: Run)
    ensures r.requests == 1 && r.backoff == 0
    ensures r.outcome != Exhausted && r.outcome != CorruptArchive
    ensures r.outcome.Raised? <==> replies(0).Reply? && replies(0).status == Ok && !replies(0).validZip
    ensures r.outcome.Raised? ==> r.outcome.e == BadZipFile
    ensures replies(0).Reply? && replies(0).status != Ok ==> r.outcome == Rejected(replies(0).status)
  {
    var o := match replies(0)
      case NetworkFailure => NetworkError
      case Reply(status, validZip) =>
        if status == Ok then (if validZip then Extracted else Raised(BadZipFile))
        else Rejected(status);
    Run(o, 1, 0)
  }

  /** The daily request and the retrying loop of `test.py` agree on every
      first reply except a 413, which only the loop retries. */
  lemma FetchOnceAgreesWithTagged(replies: Replies)
    requires !IsTooLarge(replies(0))
    ensures FetchOnce(replies) == Fetch(Tagged, replies)
  {
    StopsAtFirstNonTooLarge(Tagged, replies, 0);
  }

  /** The constants naming the station a script downloads. */
  datatype Source = Source(network: string, station: string, channel: string, format: string)

  /** TX.PB28.HHZ, as `test.py`, `downloader2.py` and the monthly pipeline ask
      the IRIS service for it. */
  const IrisPB28: Source := Source("TX", "PB28", "HHZ", "sac.zip")

  /** The `params` dictionary of one request. */
  datatype Query = Query(net: string, sta: string, cha: string, format: string, starttime: string, endtime: string)

  /** The query for window `w`, both ends written with `%Y-%m-%dT%H:%M:%S`. */
  function QueryFor(src: Source, w: Window): (q: Query)
    ensures (q.net, q.sta, q.cha, q.format) == (src.network, src.station, src.channel, src.format)
    ensures FromInstant(w.start).year <= MaxYear ==> Parse(q.starttime) == Some(FromInstant(w.start))
    ensures FromInstant(w.end).year <= MaxYear ==> Parse(q.endtime) == Some(FromInstant(w.end))
  {
    ParseFormatInRange(FromInstant(w.start));
    ParseFormatInRange(FromInstant(w.end));
    Query(src.network, src.station, src.channel, src.format,
          Format(FromInstant(w.start)), Format(FromInstant(w.end)))
  }

  /** Consecutive hourly requests abut in text as well: each `endtime` is the
      next request's `starttime`. */
  lemma QueriesAbut(src: Source, start: Instant, end: Instant, k: int)
    requires 0 <= k < |HourlyStarts(start, end)| - 1
    ensures var ws := Windows(HourlyStarts(start, end), Hour);
      QueryFor(src, ws[k]).endtime == QueryFor(src, ws[k + 1]).starttime
  {
    WindowsAbut(start, end, k);
  }
}

=== FILE: hourly.dfy ===
/** The three hourly download scripts: every hour from `start_date` to
    `end_date` is fetched with the script's own copy of the retry loop.
    `test.py` maps over the list of chunk starts in `Pool.map`'s batches,
    `downloader2.py` hands every hour of its `while` loop to a worker and
    never collects the result, and `single.py` runs the hours one after the
    other in the main process. Which worker runs which batch is not seen. */
module Hourly {
  import opened Civil
  import opened Chunks
  import opened Fetch

  /** The replies the server would give to the requests for the hour
      starting at each instant. */
  type Server = Instant -> Replies

  /** One fetch per chunk start, in list order. */
  function FetchAll(v: Variant, server: Server, ts: seq<Instant>): (runs: seq<Run>)
    ensures |runs| == |ts|
    decreases |ts|
  {
    if |ts| == 0 then [] else [Fetch.Fetch(v, server(ts[0]))] + FetchAll(v, server, ts[1..])
  }

  /** The `k`-th result is the fetch of the `k`-th chunk. */
  lemma {:induction false} FetchAllAt(v: Variant, server: Server, ts: seq<Instant>, k: nat)
    requires k < |ts|
    ensures FetchAll(v, server, ts)[k] == Fetch.Fetch(v, server(ts[k]))
    decreases k
  {
    if k > 0 {
      FetchAllAt(v, server, ts[1..], k - 1);
    }
  }

  /** Requests sent over a list of fetches. */
  function TotalRequests(runs: seq<Run>): nat {
    if |runs| == 0 then 0 else runs[0].requests + TotalRequests(runs[1..])
  }

  /** Seconds slept over a list of fetches. */
  function TotalBackoff(runs: seq<Run>): nat {
    if |runs| == 0 then 0 else runs[0].backoff + TotalBackoff(runs[1..])
  }

  /** The 413 replies a fetch consumed: every request but the last, and the
      last too when it was a 413. */
  function TooLargeCount(r: Run): int {
    if r.outcome == Exhausted then r.requests else r.requests - 1
  }

  function TotalTooLarge(runs: seq<Run>): int {
    if |runs| == 0 then 0 else TooLargeCount(runs[0]) + TotalTooLarge(runs[1..])
  }

  /** Every chunk costs at least one request and at most three. */
  lemma {:induction false} RequestsBetween(v: Variant, server: Server, ts: seq<Instant>)
    ensures |ts| <= TotalRequests(FetchAll(v, server, ts)) <= MaxRetries * |ts|
    decreases |ts|
  {
    if |ts| > 0 {
      var runs := FetchAll(v, server, ts);
      assert runs[1..] == FetchAll(v, server, ts[1..]);
      RequestsBetween(v, server, ts[1..]);
    }
  }

  /** Over a whole run the scripts sleep five seconds per 413 reply. */
  lemma {:induction false} BackoffPerTooLarge(v: Variant, server: Server, ts: seq<Instant>)
    ensures TotalBackoff(FetchAll(v, server, ts)) == BackoffSeconds * TotalTooLarge(FetchAll(v, server, ts))
    decreases |ts|
  {
    if |ts| > 0 {
      var runs := FetchAll(v, server, ts);
      assert runs[1..] == FetchAll(v, server, ts[1..]);
      BackoffPerTooLarge(v, server, ts[1..]);
    }
  }

  /** Whether an exception escaped some fetch of the list. */
  function AnyRaised(runs: seq<Run>): bool {
    |runs| > 0 && (runs[0].outcome.Raised? || AnyRaised(runs[1..]))
  }

  lemma {:induction false} AnyRaisedIff(runs: seq<Run>)
    ensures AnyRaised(runs) <==> exists k :: 0 <= k < |runs| && runs[k].outcome.Raised?
    decreases |runs|
  {
    if |runs| > 0 {
      AnyRaisedIff(runs[1..]);
      if exists k :: 0 <= k < |runs| && runs[k].outcome.Raised? {
        var k :| 0 <= k < |runs| && runs[k].outcome.Raised?;
        if k > 0 {
          assert runs[1..][k - 1] == runs[k];
        }
      }
      if exists k :: 0 <= k < |runs[1..]| && runs[1..][k].outcome.Raised? {
        var k :| 0 <= k < |runs[1..]| && runs[1..][k].outcome.Raised?;
        assert runs[k + 1] == runs[1..][k];
      }
    }
  }

  /** A finished script: the chunks it fetched, in order, and whether an
      exception reached the main process. */
  datatype Sweep = Sweep(starts: seq<Instant>, runs: seq<Run>, raised: bool)

  /** The worker processes `test.py` starts. */
  const Workers: nat := 8

  /** `Pool.map`'s default chunksize for `n` tasks: `n / (4 * workers)`
      rounded up, and 0 when there is no task. */
  function ChunkSize(n: nat): (c: nat)
    ensures n == 0 <==> c == 0
    ensures n > 0 ==> (c - 1) * (4 * Workers) < n <= c * (4 * Workers)
  {
    var q := n / (4 * Workers);
    if n % (4 * Workers) == 0 then q else q + 1
  }

  function Flatten(bs: seq<seq<Instant>>): seq<Instant>
    decreases |bs|
  {
    if |bs| == 0 then [] else bs[0] + Flatten(bs[1..])
  }

  /** The batches `Pool.map` hands to its workers: consecutive slices of
      `size` tasks, the last one possibly shorter. */
  function Batches(ts: seq<Instant>, size: nat): (bs: seq<seq<Instant>>)
    requires size > 0
    ensures Flatten(bs) == ts
    ensures forall b :: 0 <= b < |bs| ==> 0 < |bs[b]| <= size
    ensures forall b :: 0 <= b < |bs| - 1 ==> |bs[b]| == size
    decreases |ts|
  {
    if |ts| == 0 then []
    else if |ts| <= size then
      assert Flatten([ts]) == ts + Flatten([]);
      [ts]
    else
      var rest := Batches(ts[size..], size);
      var bs := [ts[..size]] + rest;
      assert bs[1..] == rest;
      assert ts[..size] + ts[size..] == ts;
      bs
  }

  /** Each worker runs its batch as `list(map(f, batch))`, so an exception
      ends that batch at its hour; the other batches still run, and `map`
      re-raises only once every batch is done. */
  function MapBatches(v: Variant, server: Server, bs: seq<seq<Instant>>): seq<Run>
    decreases |bs|
  {
    if |bs| == 0 then [] else Sequential(v, server, bs[0]) + MapBatches(v, server, bs[1..])
  }

  /** `pool.map(f, ts)` with the default chunksize. */
  function PoolMap(v: Variant, server: Server, ts: seq<Instant>): seq<Run>
  {
    if |ts| == 0 then [] else MapBatches(v, server, Batches(ts, ChunkSize(|ts|)))
  }

  lemma FetchAllConcat(v: Variant, server: Server, a: seq<Instant>, b: seq<Instant>)
    ensures FetchAll(v, server, a + b) == FetchAll(v, server, a) + FetchAll(v, server, b)
    decreases |a|
  {
    if |a| > 0 {
      assert (a + b)[0] == a[0] && (a + b)[1..] == a[1..] + b;
      FetchAllConcat(v, server, a[1..], b);
    } else {
      assert a + b == b;
    }
  }

  lemma {:induction false} AnyRaisedConcat(a: seq<Run>, b: seq<Run>)
    ensures AnyRaised(a + b) <==> AnyRaised(a) || AnyRaised(b)
    decreases |a|
  {
    if |a| > 0 {
      assert (a + b)[0] == a[0] && (a + b)[1..] == a[1..] + b;
      AnyRaisedConcat(a[1..], b);
    } else {
      assert a + b == b;
    }
  }

  /** One batch raises exactly when some hour of it would, and without a
      raise it fetches every hour of the batch. */
  lemma {:induction false} SequentialAgainstAll(v: Variant, server: Server, ts: seq<Instant>)
    ensures AnyRaised(Sequential(v, server, ts)) <==> AnyRaised(FetchAll(v, server, ts))
    ensures !AnyRaised(Sequential(v, server, ts)) ==> Sequential(v, server, ts) == FetchAll(v, server, ts)
    decreases |ts|
  {
    if |ts| > 0 {
      var r := Fetch.Fetch(v, server(ts[0]));
      var all := FetchAll(v, server, ts);
      assert all == [r] + FetchAll(v, server, ts[1..]);
      assert all[1..] == FetchAll(v, server, ts[1..]);
      if !r.outcome.Raised? {
        SequentialAgainstAll(v, server, ts[1..]);
        var runs := Sequential(v, server, ts);
        assert runs[1..] == Sequential(v, server, ts[1..]);
      }
    }
  }

  /** The batched map raises exactly when some hour of the whole list would,
      at most one run per hour, and without a raise it fetches every hour in
      list order. */
  lemma {:induction false} MapBatchesAgainstAll(v: Variant, server: Server, bs: seq<seq<Instant>>)
    ensures |MapBatches(v, server, bs)| <= |Flatten(bs)|
    ensures AnyRaised(MapBatches(v, server, bs)) <==> AnyRaised(FetchAll(v, server, Flatten(bs)))
    ensures !AnyRaised(MapBatches(v, server, bs)) ==> MapBatches(v, server, bs) == FetchAll(v, server, Flatten(bs))
    decreases |bs|
  {
    if |bs| > 0 {
      MapBatchesAgainstAll(v, server, bs[1..]);
      SequentialAgainstAll(v, server, bs[0]);
      FetchAllConcat(v, server, bs[0], Flatten(bs[1..]));
      AnyRaisedConcat(Sequential(v, server, bs[0]), MapBatches(v, server, bs[1..]));
      AnyRaisedConcat(FetchAll(v, server, bs[0]), FetchAll(v, server, Flatten(bs[1..])));
    }
  }

  lemma PoolMapAgainstAll(v: Variant, server: Server, ts: seq<Instant>)
    ensures |PoolMap(v, server, ts)| <= |ts|
    ensures AnyRaised(PoolMap(v, server, ts)) <==> AnyRaised(FetchAll(v, server, ts))
    ensures !AnyRaised(PoolMap(v, server, ts)) ==> PoolMap(v, server, ts) == FetchAll(v, server, ts)
  {
    if |ts| > 0 {
      MapBatchesAgainstAll(v, server, Batches(ts, ChunkSize(|ts|)));
    }
  }

  /** `test.py`: `pool.map` over the chunk list. An exception raised in a
      worker ends that worker's batch and is re-raised by `map`, so the
      summary is printed only when none escaped. */
  function TaggedScript(server: Server, start: Instant, end: Instant): (s: Sweep)
    ensures s.starts == RangeStarts(start, end, Hour)
    ensures |s.runs| <= |s.starts|
    ensures s.raised <==> AnyRaised(FetchAll(Tagged, server, s.starts))
    ensures !s.raised ==> s.runs == FetchAll(Tagged, server, s.starts)
  {
    var ts := RangeStarts(start, end, Hour);
    var runs := PoolMap(Tagged, server, ts);
    PoolMapAgainstAll(Tagged, server, ts);
    Sweep(ts, runs, AnyRaised(runs))
  }

  /** In `test.py` only a 200 whose body is not a zip archive stops the
      summary; a network failure is reported in the results instead. */
  lemma TaggedScriptRaises(server: Server, start: Instant, end: Instant)
    ensures var s := TaggedScript(server, start, end);
      s.raised <==> exists k :: 0 <= k < |s.starts| && Fetch.Fetch(Tagged, server(s.starts[k])).outcome == Raised(BadZipFile)
  {
    var s := TaggedScript(server, start, end);
    var all := FetchAll(Tagged, server, s.starts);
    AnyRaisedIff(all);
    forall k | 0 <= k < |s.starts|
      ensures all[k].outcome.Raised? <==> Fetch.Fetch(Tagged, server(s.starts[k])).outcome == Raised(BadZipFile)
    {
      FetchAllAt(Tagged, server, s.starts, k);
      TaggedOutcomes(server(s.starts[k]));
    }
  }

  /** `downloader2.py`: `apply_async` for every hour of the `while` loop, with
      no result ever collected, so an exception in a worker is lost and every
      hour is attempted. */
  function SilentScript(server: Server, start: Instant, end: Instant): (s: Sweep)
    ensures !s.raised
    ensures s.starts == HourlyStarts(start, end)
    ensures |s.runs| == |s.starts|
    ensures s.runs == FetchAll(Silent, server, s.starts)
  {
    var ts := HourlyStarts(start, end);
    Sweep(ts, FetchAll(Silent, server, ts), false)
  }

  /** Whenever the range is not reversed, `downloader2.py` requests exactly
      the hours of `test.py`, in the same order, with the same retry counts. */
  lemma SilentSameHoursAsTagged(server: Server, start: Instant, end: Instant)
    requires start <= end
    ensures SilentScript(server, start, end).starts == TaggedScript(server, start, end).starts
    ensures !TaggedScript(server, start, end).raised ==>
      |TaggedScript(server, start, end).runs| == |SilentScript(server, start, end).runs| &&
      forall k :: 0 <= k < |SilentScript(server, start, end).runs| ==>
        SilentScript(server, start, end).runs[k].requests == TaggedScript(server, start, end).runs[k].requests
  {
    RangeMatchesWhile(start, end);
    var ts := HourlyStarts(start, end);
    forall k | 0 <= k < |ts|
      ensures FetchAll(Silent, server, ts)[k].requests == FetchAll(Tagged, server, ts)[k].requests
    {
      FetchAllAt(Silent, server, ts, k);
      FetchAllAt(Tagged, server, ts, k);
      SameRequests(server(ts[k]));
    }
  }

  /** The variants differ only in what they catch, never in how many requests
      they send. */
  lemma SameRequests(replies: Replies)
    ensures Fetch.Fetch(Silent, replies).requests == Fetch.Fetch(Tagged, replies).requests
    ensures Fetch.Fetch(ZipChecked, replies).requests == Fetch.Fetch(Tagged, replies).requests
  {
    var k := 0;
    while k < MaxRetries && IsTooLarge(replies(k))
      invariant 0 <= k <= MaxRetries
      invariant forall i :: 0 <= i < k ==> IsTooLarge(replies(i))
      decreases MaxRetries - k
    {
      k := k + 1;
    }
    if k < MaxRetries {
      StopsAtFirstNonTooLarge(Silent, replies, k);
      StopsAtFirstNonTooLarge(Tagged, replies, k);
      StopsAtFirstNonTooLarge(ZipChecked, replies, k);
    } else {
      ExhaustedIffThreeTooLarge(Silent, replies);
      ExhaustedIffThreeTooLarge(Tagged, replies);
      ExhaustedIffThreeTooLarge(ZipChecked, replies);
    }
  }

  /** The hours one after the other in one process, as `single.py` runs them
      and as a `Pool.map` worker runs one batch: an exception that escapes a
      fetch ends the iteration at that hour. */
  function Sequential(v: Variant, server: Server, ts: seq<Instant>): (runs: seq<Run>)
    ensures |runs| <= |ts|
    ensures |ts| > 0 ==> |runs| > 0
    decreases |ts|
  {
    if |ts| == 0 then []
    else
      var r := Fetch.Fetch(v, server(ts[0]));
      if r.outcome.Raised? then [r] else [r] + Sequential(v, server, ts[1..])
  }

  function SingleScript(server: Server, start: Instant, end: Instant): (s: Sweep)
    ensures s.starts == HourlyStarts(start, end)
  {
    var ts := HourlyStarts(start, end);
    var runs := Sequential(ZipChecked, server, ts);
    Sweep(ts, runs, AnyRaised(runs))
  }

  function LastRun(runs: seq<Run>): Run
    requires |runs| > 0
  {
    runs[|runs| - 1]
  }

  /** The sequential run fetches the hours in order: it is a prefix of the
      list of all fetches. */
  lemma {:induction false} SequentialIsPrefix(v: Variant, server: Server, ts: seq<Instant>)
    ensures var runs := Sequential(v, server, ts);
      runs == FetchAll(v, server, ts)[..|runs|]
    decreases |ts|
  {
    if |ts| > 0 {
      var r := Fetch.Fetch(v, server(ts[0]));
      var all := FetchAll(v, server, ts);
      var rest := FetchAll(v, server, ts[1..]);
      assert all == [r] + rest;
      if !r.outcome.Raised? {
        SequentialIsPrefix(v, server, ts[1..]);
        var seqRest := Sequential(v, server, ts[1..]);
        assert Sequential(v, server, ts) == [r] + seqRest;
        assert [r] + rest[..|seqRest|] == all[..|seqRest| + 1];
      }
    }
  }

  /** No fetch before the last one raised. */
  predicate NoEarlyRaise(runs: seq<Run>) {
    forall k :: 0 <= k < |runs| - 1 ==> !runs[k].outcome.Raised?
  }

  lemma {:induction false} SequentialNoEarlyRaise(v: Variant, server: Server, ts: seq<Instant>)
    ensures NoEarlyRaise(Sequential(v, server, ts))
    decreases |ts|
  {
    if |ts| > 0 {
      var r := Fetch.Fetch(v, server(ts[0]));
      if !r.outcome.Raised? {
        SequentialNoEarlyRaise(v, server, ts[1..]);
        var rest := Sequential(v, server, ts[1..]);
        var runs := Sequential(v, server, ts);
        assert runs == [r] + rest;
        forall k | 0 <= k < |runs| - 1 ensures !runs[k].outcome.Raised? {
          if k > 0 {
            assert runs[k] == rest[k - 1];
          }
        }
      }
    }
  }

  /** It stops just after the first fetch an exception escaped from, and
      runs through every hour when there is none. */
  lemma {:induction false} SequentialStops(v: Variant, server: Server, ts: seq<Instant>)
    ensures var runs := Sequential(v, server, ts);
      && (AnyRaised(runs) <==> |runs| > 0 && LastRun(runs).outcome.Raised?)
      && (!AnyRaised(runs) ==> |runs| == |ts|)
    decreases |ts|
  {
    if |ts| > 0 {
      var r := Fetch.Fetch(v, server(ts[0]));
      if !r.outcome.Raised? {
        SequentialStops(v, server, ts[1..]);
        var rest := Sequential(v, server, ts[1..]);
        var runs := Sequential(v, server, ts);
        assert runs == [r] + rest;
        assert runs[1..] == rest;
        if |rest| > 0 {
          assert LastRun(runs) == LastRun(rest);
        }
      }
    }
  }

  /** `single.py` fetches the hours in order, starting from the first. */
  lemma SingleScriptFetches(server: Server, start: Instant, end: Instant)
    ensures var s := SingleScript(server, start, end);
      && |s.runs| <= |s.starts|
      && (forall k :: 0 <= k < |s.runs| ==> s.runs[k] == Fetch.Fetch(ZipChecked, server(s.starts[k])))
  {
    var s := SingleScript(server, start, end);
    SequentialIsPrefix(ZipChecked, server, s.starts);
    forall k | 0 <= k < |s.runs| ensures s.runs[k] == Fetch.Fetch(ZipChecked, server(s.starts[k])) {
      assert s.runs[k] == FetchAll(ZipChecked, server, s.starts)[k];
      FetchAllAt(ZipChecked, server, s.starts, k);
    }
  }

  /** `single.py` stops at the first hour whose request raised, which can
      only be a RequestException; without one every hour is fetched. */
  lemma SingleScriptStops(server: Server, start: Instant, end: Instant)
    ensures var s := SingleScript(server, start, end);
      && NoEarlyRaise(s.runs)
      && (s.raised ==> |s.runs| > 0 && LastRun(s.runs).outcome == Raised(RequestException))
      && (!s.raised ==> |s.runs| == |s.starts|)
  {
    var s := SingleScript(server, start, end);
    SequentialNoEarlyRaise(ZipChecked, server, s.starts);
    SequentialStops(ZipChecked, server, s.starts);
    if s.raised {
      SingleScriptFetches(server, start, end);
      ZipCheckedOutcomes(server(s.starts[|s.runs| - 1]));
    }
  }
}

=== FILE: ledger.dfy ===
/** The trigger ledger: the CSV file `trigger_info.csv`, seen as an optional
    sequence of lines (`None` while the file does not exist). It is only ever
    opened for appending; the header goes in when the file is created. */
module Ledger {
  import opened Options
  import opened Civil
  import opened Triggers

  /** One data line: the columns `SAC_file, Station, Start_Time, End_Time,
      Number_of_Triggers, Trigger_Times`. The two times are the first trace's
      start and end, kept to the whole second. */
  datatype Row = Row(sacFile: string, station: string, startTime: Instant, endTime: Instant,
                     triggerCount: nat, triggerTimes: string)

  /** A line of the CSV: the header `SAC_file,Station,Start_Time,End_Time,
      Number_of_Triggers,Trigger_Times`, or one row. */
  datatype Line = Header | Record(row: Row)

  /** The ledger file; `None` when it does not exist. */
  type File = Option<seq<Line>>

  /** A ledger whose first line is the only header. */
  predicate WellFormed(f: File) {
    f.Some? ==>
      && |f.value| >= 1
      && f.value[0] == Header
      && forall i :: 1 <= i < |f.value| ==> f.value[i].Record?
  }

  function HeaderCount(lines: seq<Line>): nat {
    if |lines| == 0 then 0
    else HeaderCount(lines[..|lines| - 1]) + (if lines[|lines| - 1] == Header then 1 else 0)
  }

  /** In a well-formed ledger the header appears exactly once, as the first line. */
  lemma {:induction false} WellFormedHeaderOnce(f: File)
    requires WellFormed(f) && f.Some?
    ensures HeaderCount(f.value) == 1 && f.value[0] == Header
  {
    var ls := f.value;
    var k := |ls|;
    assert ls[..k] == ls;
    while k > 1
      invariant 1 <= k <= |ls|
      invariant HeaderCount(ls[..k]) == HeaderCount(ls)
      decreases k
    {
      assert ls[..k][..k - 1] == ls[..k - 1];
      k := k - 1;
    }
    assert ls[..1] == [Header];
    assert ls[..1][..0] == [];
  }

  /** `open(CSV_FILE_PATH, 'a')` followed by `writeheader()` when the file did
      not exist just before: the lines the writer then appends to. */
  function OpenForAppend(f: File): (lines: seq<Line>)
    ensures WellFormed(f) ==> WellFormed(Some(lines))
    ensures f.None? ==> lines == [Header]
    ensures f.Some? ==> lines == f.value
  {
    match f
    case None => [Header]
    case Some(ls) => ls
  }

  /** A row whose `Trigger_Times` text reads back to a list of
      `Number_of_Triggers` pairs. */
  predicate Consistent(r: Row) {
    Parse(r.triggerTimes).Some? && |Parse(r.triggerTimes).value| == r.triggerCount
  }

  /** The row written for a file whose first trace has the given station and
      times and whose detector returned `ps`. */
  function RowFor(sacFile: string, station: string, startTime: Instant, endTime: Instant, ps: seq<Pair>): (r: Row)
    ensures r.triggerCount == |ps|
    ensures Parse(r.triggerTimes) == Some(ps)
    ensures Consistent(r)
  {
    ParseJoin(ps);
    Row(sacFile, station, startTime, endTime, |ps|, Join(ps))
  }

  /** Whether some data line of `lines` starts on day number `day`, looking
      from the last line back. */
  function AnyOnDay(lines: seq<Line>, day: nat): bool
  {
    if |lines| == 0 then false
    else
      var last := lines[|lines| - 1];
      (last.Record? && DayOf(last.row.startTime) == day) || AnyOnDay(lines[..|lines| - 1], day)
  }

  lemma {:induction false} AnyOnDayIff(lines: seq<Line>, day: nat)
    ensures AnyOnDay(lines, day) <==> exists i :: 0 <= i < |lines| && lines[i].Record? && DayOf(lines[i].row.startTime) == day
    decreases |lines|
  {
    if |lines| > 0 {
      var init := lines[..|lines| - 1];
      AnyOnDayIff(init, day);
      if exists i :: 0 <= i < |lines| && lines[i].Record? && DayOf(lines[i].row.startTime) == day {
        var i :| 0 <= i < |lines| && lines[i].Record? && DayOf(lines[i].row.startTime) == day;
        if i < |lines| - 1 {
          assert init[i] == lines[i];
        }
      }
      if exists i :: 0 <= i < |init| && init[i].Record? && DayOf(init[i].row.startTime) == day {
        var i :| 0 <= i < |init| && init[i].Record? && DayOf(init[i].row.startTime) == day;
        assert lines[i] == init[i];
      }
    }
  }

  /** `check_if_already_processed(t)`: the ledger exists and one of its rows
      starts on the calendar date of `t`. */
  function IsProcessed(f: File, t: Instant): (b: bool)
    ensures f.None? ==> !b
  {
    f.Some? && AnyOnDay(f.value, DayOf(t))
  }

  /** A day counts as processed exactly when some data line of the ledger
      starts on it. */
  lemma ProcessedIff(f: File, t: Instant)
    ensures IsProcessed(f, t) <==> f.Some? && exists i :: 0 <= i < |f.value| && f.value[i].Record?
                                                   && DayOf(f.value[i].row.startTime) == DayOf(t)
  {
    if f.Some? {
      AnyOnDayIff(f.value, DayOf(t));
    }
  }

  /** The two instants fall on the same civil year, month and day. */
  predicate SameDate(a: Instant, b: Instant) {
    var x := FromInstant(a);
    var y := FromInstant(b);
    (x.year, x.month, x.day) == (y.year, y.month, y.day)
  }

  /** The query compares calendar dates only: a day counts as processed exactly
      when some row's start has the same civil year, month and day, whatever
      the two times of day. */
  lemma ProcessedIffSameDate(f: File, t: Instant)
    ensures IsProcessed(f, t) <==>
      f.Some? && exists i :: 0 <= i < |f.value| && f.value[i].Record? && SameDate(f.value[i].row.startTime, t)
  {
    ProcessedIff(f, t);
    if f.Some? {
      forall i | 0 <= i < |f.value| && f.value[i].Record?
        ensures DayOf(f.value[i].row.startTime) == DayOf(t) <==> SameDate(f.value[i].row.startTime, t)
      {
        SameDayIffSameDate(f.value[i].row.startTime, t);
      }
    }
  }

  /** Appending never un-processes a day: once a day is in the ledger it stays. */
  lemma ProcessedPersists(lines: seq<Line>, more: seq<Line>, t: Instant)
    requires IsProcessed(Some(lines), t)
    ensures IsProcessed(Some(lines + more), t)
  {
    ProcessedIff(Some(lines), t);
    var i :| 0 <= i < |lines| && lines[i].Record? && DayOf(lines[i].row.startTime) == DayOf(t);
    assert (lines + more)[i] == lines[i];
    ProcessedIff(Some(lines + more), t);
  }

  /** After a row is appended, its day and every instant of that day count as processed. */
  lemma AppendMarksDay(lines: seq<Line>, r: Row, t: Instant)
    requires DayOf(t) == DayOf(r.startTime)
    ensures IsProcessed(Some(lines + [Record(r)]), t)
  {
    assert (lines + [Record(r)])[|lines|] == Record(r);
    ProcessedIff(Some(lines + [Record(r)]), t);
  }
}

=== FILE: options.dfy ===
/** The conventional Some/None datatype, for values that may be absent. */
module Options {

  datatype Option<+T> = None | Some(value: T)
}

=== FILE: paths.dfy ===
/** The two path operations the scripts use: `os.path.join` with two parts
    and `str.endswith`. */
module Paths {

  const Separator: char := '/'

  /** POSIX `os.path.join(dir, name)`. */
  function JoinPath(dir: string, name: string): (p: string)
    ensures |name| > 0 && name[0] == Separator ==> p == name
    ensures (|name| == 0 || name[0] != Separator) && |dir| > 0 && dir[|dir| - 1] != Separator ==>
              p == dir + [Separator] + name
    ensures (|name| == 0 || name[0] != Separator) && (|dir| == 0 || dir[|dir| - 1] == Separator) ==>
              p == dir + name
    ensures |name| <= |p| && p[|p| - |name|..] == name
  {
    if |name| > 0 && name[0] == Separator then name
    else if |dir| == 0 || dir[|dir| - 1] == Separator then dir + name
    else dir + [Separator] + name
  }

  /** `s.endswith(suffix)`. */
  predicate EndsWith(s: string, suffix: string) {
    |suffix| <= |s| && s[|s| - |suffix|..] == suffix
  }

  /** A joined path ends with whatever the file name ends with. */
  lemma JoinKeepsSuffix(dir: string, name: string, suffix: string)
    requires EndsWith(name, suffix)
    ensures EndsWith(JoinPath(dir, name), suffix)
  {
    var p := JoinPath(dir, name);
    assert p[|p| - |name|..] == name;
    assert p[|p| - |suffix|..] == name[|name| - |suffix|..];
  }
}

=== FILE: pipeline.dfy ===
/** The monthly pipeline (`seismicPipeline.py`): for every month from the
    first of the start month while that first is not after the end date,
    download each day of the month not yet in the ledger into a fresh month
    folder, run the per-file loop over that folder, and delete it. */
module Pipeline {
  import opened Options
  import opened Civil
  import opened Stamp
  import opened Chunks
  import opened Fetch
  import opened Paths
  import opened Ledger
  import opened Process

  const DataDir: string := "./seismic_data"

  /** The run the script's main block performs: from 2021-09-01 to 2025-02-25. */
  const StartDate: DateTime := DateTime(2021, 9, 1, 0, 0, 0)
  const EndDate: DateTime := DateTime(2025, 2, 25, 0, 0, 0)

  /** `get_monthly_folder(date)`: `./seismic_data/YYYY-MM`. */
  function MonthFolder(dt: DateTime): (p: string)
    requires Valid(dt)
    ensures |FormatYearMonth(dt)| <= |p| && p[|p| - |FormatYearMonth(dt)|..] == FormatYearMonth(dt)
    ensures p == DataDir + "/" + FormatYearMonth(dt)
  {
    JoinPath(DataDir, FormatYearMonth(dt))
  }

  /** Two months share a folder exactly when they are the same calendar month. */
  lemma MonthFolderIdentifiesMonth(a: DateTime, b: DateTime)
    requires Valid(a) && a.year <= MaxYear && Valid(b) && b.year <= MaxYear
    ensures MonthFolder(a) == MonthFolder(b) <==> (a.year, a.month) == (b.year, b.month)
  {
    ParseFormatYearMonth(a);
    ParseFormatYearMonth(b);
    YearMonthIdentifiesMonth(a, b);
  }

  /** The data centre as the pipeline sees it: the replies to the request for
      the day starting at `t`, and the names of the files in the archive a
      successful reply carries. */
  datatype Server = Server(replies: Instant -> Replies, archive: Instant -> seq<string>)

  /** The query of the daily request: `[t, t + 1 day)` for TX.PB28.HHZ. */
  function DailyQuery(t: Instant): (q: Query)
    ensures q.net == "TX" && q.sta == "PB28" && q.cha == "HHZ" && q.format == "sac.zip"
    ensures FromInstant(t).year <= MaxYear ==> Stamp.Parse(q.starttime) == Some(FromInstant(t))
    ensures FromInstant(t + Day).year <= MaxYear ==> Stamp.Parse(q.endtime) == Some(FromInstant(t + Day))
  {
    QueryFor(IrisPB28, WindowAt(t, Day))
  }

  predicate NoDuplicates(s: seq<string>) {
    forall i, j :: 0 <= i < j < |s| ==> s[i] != s[j]
  }

  /** `extractall` into the month folder: a name already there is overwritten
      in place, a new one is added. */
  function AddNames(files: seq<string>, names: seq<string>): (r: seq<string>)
    ensures files <= r
    decreases |names|
  {
    if |names| == 0 then files
    else if names[0] in files then AddNames(files, names[1..])
    else AddNames(files + [names[0]], names[1..])
  }

  /** After extraction the folder holds exactly the names it held and the
      archive's names. */
  lemma {:induction false} AddNamesContents(files: seq<string>, names: seq<string>)
    ensures forall n :: n in AddNames(files, names) <==> n in files || n in names
    decreases |names|
  {
    if |names| > 0 {
      if names[0] in files {
        AddNamesContents(files, names[1..]);
      } else {
        AddNamesContents(files + [names[0]], names[1..]);
      }
      assert forall n :: n in names <==> n == names[0] || n in names[1..];
    }
  }

  /** Extraction never lists a name twice. */
  lemma {:induction false} AddNamesNoDuplicates(files: seq<string>, names: seq<string>)
    requires NoDuplicates(files)
    ensures NoDuplicates(AddNames(files, names))
    decreases |names|
  {
    if |names| > 0 {
      if names[0] in files {
        AddNamesNoDuplicates(files, names[1..]);
      } else {
        var more := files + [names[0]];
        forall i, j | 0 <= i < j < |more| ensures more[i] != more[j] {
          if j == |files| {
            assert more[i] == files[i] && files[i] in files;
          }
        }
        AddNamesNoDuplicates(more, names[1..]);
      }
    }
  }

  predicate Ascending(ts: seq<Instant>) {
    forall i, j :: 0 <= i < j < |ts| ==> ts[i] < ts[j]
  }

  /** What the download loop does with one day: skip it, or send its request,
      which ends in `outcome`. */
  datatype Visit = Skip | Send(outcome: Outcome)

  /** The ledger is read before each day: a day already in it is skipped,
      any other is requested once. */
  function DayVisit(f: File, srv: Server, t: Instant): (v: Visit)
    ensures v.Send? <==> !IsProcessed(f, t)
    ensures v.Send? ==> v.outcome == FetchOnce(srv.replies(t)).outcome
  {
    if IsProcessed(f, t) then Skip else Send(FetchOnce(srv.replies(t)).outcome)
  }

  /** The requests a download loop sent, the folder it filled, and whether a
      corrupt archive ended the script. */
  datatype Download = Download(requested: seq<Instant>, files: seq<string>, crashed: bool)

  /** `download_monthly_data` over the remaining `days`, the folder holding
      `files` so far, each day visited as `visit` says. A status other than
      200 and a RequestException are logged; an exception that escapes
      (a 200 whose body is not a zip) ends the script. */
  function DownloadDays(visit: Instant -> Visit, archive: Instant -> seq<string>, days: seq<Instant>, files: seq<string>)
    : (d: Download)
    ensures |d.requested| <= |days|
    ensures files <= d.files
    decreases |days|
  {
    if |days| == 0 then Download([], files, false)
    else
      var t := days[0];
      match visit(t)
      case Skip => DownloadDays(visit, archive, days[1..], files)
      case Send(o) =>
        if o.Raised? then Download([t], files, true)
        else
          var d := DownloadDays(visit, archive, days[1..], if o == Extracted then AddNames(files, archive(t)) else files);
          Download([t] + d.requested, d.files, d.crashed)
  }

  /** The folder never lists a file twice. */
  lemma {:induction false} DownloadNoDuplicates(visit: Instant -> Visit, archive: Instant -> seq<string>, days: seq<Instant>, files: seq<string>)
    requires NoDuplicates(files)
    ensures NoDuplicates(DownloadDays(visit, archive, days, files).files)
    decreases |days|
  {
    if |days| > 0 {
      var t := days[0];
      if visit(t).Skip? {
        DownloadNoDuplicates(visit, archive, days[1..], files);
      } else if !visit(t).outcome.Raised? {
        var o := visit(t).outcome;
        if o == Extracted {
          AddNamesNoDuplicates(files, archive(t));
        }
        DownloadNoDuplicates(visit, archive, days[1..], if o == Extracted then AddNames(files, archive(t)) else files);
      }
    }
  }

  /** Only days of the loop that are not skipped are requested. */
  lemma {:induction false} DownloadOnlySent(visit: Instant -> Visit, archive: Instant -> seq<string>, days: seq<Instant>, files: seq<string>)
    ensures forall t :: t in DownloadDays(visit, archive, days, files).requested ==> t in days && visit(t).Send?
    decreases |days|
  {
    if |days| > 0 {
      var t := days[0];
      var rest := days[1..];
      assert forall u :: u in rest ==> u in days;
      if visit(t).Skip? {
        DownloadOnlySent(visit, archive, rest, files);
      } else if !visit(t).outcome.Raised? {
        var o := visit(t).outcome;
        DownloadOnlySent(visit, archive, rest, if o == Extracted then AddNames(files, archive(t)) else files);
      }
    }
  }

  /** Unless an exception ended the script, every day of the loop that is not
      skipped is requested. */
  lemma {:induction false} DownloadAllSent(visit: Instant -> Visit, archive: Instant -> seq<string>, days: seq<Instant>, files: seq<string>)
    ensures var d := DownloadDays(visit, archive, days, files);
      !d.crashed ==> forall t :: t in days && visit(t).Send? ==> t in d.requested
    decreases |days|
  {
    if |days| > 0 {
      var t := days[0];
      var rest := days[1..];
      assert forall u :: u in days ==> u == t || u in rest;
      if visit(t).Skip? {
        DownloadAllSent(visit, archive, rest, files);
      } else if !visit(t).outcome.Raised? {
        var o := visit(t).outcome;
        DownloadAllSent(visit, archive, rest, if o == Extracted then AddNames(files, archive(t)) else files);
      }
    }
  }

  /** The requests go out in the order the loop visits the days, each day at
      most once. */
  lemma {:induction false} DownloadAscending(visit: Instant -> Visit, archive: Instant -> seq<string>, days: seq<Instant>, files: seq<string>)
    requires Ascending(days)
    ensures Ascending(DownloadDays(visit, archive, days, files).requested)
    decreases |days|
  {
    if |days| > 0 {
      var t := days[0];
      var rest := days[1..];
      AscendingTail(days);
      if visit(t).Skip? {
        DownloadAscending(visit, archive, rest, files);
      } else if !visit(t).outcome.Raised? {
        var o := visit(t).outcome;
        var files' := if o == Extracted then AddNames(files, archive(t)) else files;
        DownloadAscending(visit, archive, rest, files');
        DownloadOnlySent(visit, archive, rest, files');
        var d := DownloadDays(visit, archive, rest, files');
        AscendingCons(t, d.requested, rest);
      }
    }
  }

  lemma AscendingTail(ts: seq<Instant>)
    requires Ascending(ts) && |ts| > 0
    ensures Ascending(ts[1..]) && forall u :: u in ts[1..] ==> ts[0] < u
  {
    var rest := ts[1..];
    forall i, j | 0 <= i < j < |rest| ensures rest[i] < rest[j] {
      assert rest[i] == ts[i + 1] && rest[j] == ts[j + 1];
    }
    forall u | u in rest ensures ts[0] < u {
      var i :| 0 <= i < |rest| && rest[i] == u;
      assert ts[i + 1] == u;
    }
  }

  /** A sub-list of the days after `t`, put behind `t`, stays ascending. */
  lemma AscendingCons(t: Instant, ts: seq<Instant>, later: seq<Instant>)
    requires Ascending(ts)
    requires forall u :: u in ts ==> u in later
    requires forall u :: u in later ==> t < u
    ensures Ascending([t] + ts)
  {
    var all := [t] + ts;
    forall i, j | 0 <= i < j < |all| ensures all[i] < all[j] {
      assert all[j] == ts[j - 1] && ts[j - 1] in ts;
      if i > 0 {
        assert all[i] == ts[i - 1];
      }
    }
  }

  function Last(ts: seq<Instant>): Instant
    requires |ts| > 0
  {
    ts[|ts| - 1]
  }

  lemma LastCons(t: Instant, ts: seq<Instant>)
    requires |ts| > 0
    ensures Last([t] + ts) == Last(ts)
  {
  }

  /** A visit whose request let an exception escape. */
  predicate Raises(v: Visit) {
    v.Send? && v.outcome.Raised?
  }

  /** The script dies in the download loop only on a request an exception
      escaped from, and that request is the last. */
  lemma {:induction false} DownloadCrashIsLast(visit: Instant -> Visit, archive: Instant -> seq<string>, days: seq<Instant>, files: seq<string>)
    ensures var d := DownloadDays(visit, archive, days, files);
      d.crashed ==> |d.requested| > 0 && Raises(visit(Last(d.requested)))
    decreases |days|
  {
    if |days| > 0 {
      var t := days[0];
      var d := DownloadDays(visit, archive, days, files);
      if visit(t).Skip? {
        DownloadCrashIsLast(visit, archive, days[1..], files);
        assert d == DownloadDays(visit, archive, days[1..], files);
      } else if visit(t).outcome.Raised? {
        assert d.requested == [t] && Last(d.requested) == t;
      } else {
        var o := visit(t).outcome;
        var files' := if o == Extracted then AddNames(files, archive(t)) else files;
        DownloadCrashIsLast(visit, archive, days[1..], files');
        var d' := DownloadDays(visit, archive, days[1..], files');
        assert d == Download([t] + d'.requested, d'.files, d'.crashed);
        if d'.crashed {
          LastCons(t, d'.requested);
        }
      }
    }
  }

  /** The folder holds, once each, the names of the archives of successful
      requests, and nothing else. */
  lemma {:induction false} DownloadFolderContents(visit: Instant -> Visit, archive: Instant -> seq<string>, days: seq<Instant>, files: seq<string>)
    ensures var d := DownloadDays(visit, archive, days, files);
      forall n :: n in d.files <==> n in files || exists u :: u in d.requested && visit(u) == Send(Extracted) && n in archive(u)
    decreases |days|
  {
    if |days| > 0 {
      var t := days[0];
      var d := DownloadDays(visit, archive, days, files);
      if visit(t).Skip? {
        DownloadFolderContents(visit, archive, days[1..], files);
        assert d == DownloadDays(visit, archive, days[1..], files);
      } else if !visit(t).outcome.Raised? {
        var o := visit(t).outcome;
        var files' := if o == Extracted then AddNames(files, archive(t)) else files;
        AddNamesContents(files, archive(t));
        DownloadFolderContents(visit, archive, days[1..], files');
        var d' := DownloadDays(visit, archive, days[1..], files');
        assert d.requested == [t] + d'.requested && d.files == d'.files;
        forall n | n in d.files
          ensures n in files || exists u :: u in d.requested && visit(u) == Send(Extracted) && n in archive(u)
        {
          if n !in files && n !in files' {
            var u :| u in d'.requested && visit(u) == Send(Extracted) && n in archive(u);
            assert u in d.requested;
          }
        }
        forall n | n in files || exists u :: u in d.requested && visit(u) == Send(Extracted) && n in archive(u)
          ensures n in d.files
        {
          if n !in files {
            var u :| u in d.requested && visit(u) == Send(Extracted) && n in archive(u);
            if u != t {
              assert u in d'.requested;
            }
          }
        }
      }
    }
  }

  /** The download loop of the script: days already in the ledger are
      skipped, the others requested once each. */
  function DownloadMonth(f: File, srv: Server, days: seq<Instant>): (d: Download)
  {
    DownloadDays((t: Instant) => DayVisit(f, srv, t), srv.archive, days, [])
  }

  /** The script's download loop requests exactly the days missing from the
      ledger (all of them unless it died), in order, into a folder without
      duplicates holding the archives of the successful requests; it dies
      only on a 200 whose body is not a zip, on the last request. */
  lemma DownloadMonthFacts(f: File, srv: Server, days: seq<Instant>)
    requires Ascending(days)
    ensures var d := DownloadMonth(f, srv, days);
      && (forall t :: t in d.requested ==> t in days && !IsProcessed(f, t))
      && (!d.crashed ==> forall t :: t in days && !IsProcessed(f, t) ==> t in d.requested)
      && Ascending(d.requested)
      && NoDuplicates(d.files)
      && (forall n :: n in d.files <==> exists u :: u in d.requested && FetchOnce(srv.replies(u)).outcome == Extracted && n in srv.archive(u))
      && (d.crashed ==> |d.requested| > 0 && CorruptReply(srv.replies(Last(d.requested))(0)))
  {
    var visit := (t: Instant) => DayVisit(f, srv, t);
    DownloadOnlySent(visit, srv.archive, days, []);
    DownloadAllSent(visit, srv.archive, days, []);
    DownloadAscending(visit, srv.archive, days, []);
    DownloadNoDuplicates(visit, srv.archive, days, []);
    DownloadFolderContents(visit, srv.archive, days, []);
    DownloadCrashIsLast(visit, srv.archive, days, []);
  }

  /** A 200 reply whose body does not open as a zip archive. */
  predicate CorruptReply(r: Response) {
    r.Reply? && r.status == Ok && !r.validZip
  }

  /** The days `download_monthly_data(start_time, end_time, ...)` visits:
      `while current_time < end_time: ...; current_time += 1 day`. */
  function DayWalk(from: Instant, to: Instant): (ts: seq<Instant>)
    ensures forall k :: 0 <= k < |ts| ==> ts[k] == from + k * Day
    ensures Ascending(ts)
    ensures forall t :: t in ts ==> from <= t < to
    ensures from + |ts| * Day >= to
  {
    var ts := Stride(from, to, Day);
    forall t | t in ts ensures from <= t < to {
      var k :| 0 <= k < |ts| && ts[k] == t;
      StrideBelow(from, to, Day, k);
    }
    ts
  }

  /** The days the main loop downloads for the month starting at `cur`: from
      `current_month` up to `next_month`. */
  function MonthDays(cur: DateTime): (ts: seq<Instant>)
    requires Valid(cur) && cur.day == 1
  {
    DayWalk(ToInstant(cur), ToInstant(FirstOfNext(cur)))
  }

  /** A day walk over `n` whole days visits `n` days. */
  lemma StrideDays(t: Instant, n: nat)
    ensures |Stride(t, t + n * Day, Day)| == n
  {
    var ts := Stride(t, t + n * Day, Day);
    var m := |ts|;
    assert t + m * Day >= t + n * Day;
  }

  /** From the first of a month the loop visits as many days as the month has. */
  lemma MonthDaysCount(cur: DateTime)
    requires Valid(cur) && cur.day == 1
    ensures |MonthDays(cur)| == DaysInMonth(cur.year, cur.month)
  {
    StrideDays(ToInstant(cur), DaysInMonth(cur.year, cur.month));
  }

  /** From the first of a month the loop visits every calendar day of that
      month once, in order, at the time of day of `cur`: the `k`-th instant is
      day `k + 1` of the month. */
  lemma MonthDaysShape(cur: DateTime)
    requires Valid(cur) && cur.day == 1
    ensures forall k :: 0 <= k < |MonthDays(cur)| ==>
      MonthDays(cur)[k] == DayNumber(cur.year, cur.month, k + 1) * Day + SecondOfDay(cur)
  {
    forall k | 0 <= k < |MonthDays(cur)|
      ensures MonthDays(cur)[k] == DayNumber(cur.year, cur.month, k + 1) * Day + SecondOfDay(cur)
    {
      var d0 := DayNumber(cur.year, cur.month, 1);
      assert (d0 + k) * Day == d0 * Day + k * Day;
    }
  }

  /** One pass of the main loop body. */
  datatype MonthRun = MonthRun(ledger: File, requested: seq<Instant>, crashed: bool)

  /** Clean the month folder, download the month's pending days into it,
      process it, delete it. A corrupt archive ends the script before the
      folder is processed. */
  function RunMonth(f: File, cur: DateTime, srv: Server, read: Reader, detect: Detector): MonthRun
    requires Valid(cur) && cur.day == 1
  {
    var d := DownloadMonth(f, srv, MonthDays(cur));
    if d.crashed then MonthRun(f, d.requested, true)
    else MonthRun(ProcessFolder(Monthly, f, MonthFolder(cur), d.files, read, detect).0, d.requested, false)
  }

  /** One month requests exactly the days of the month missing from the
      ledger (up to a crash), in order. */
  lemma RunMonthRequests(f: File, cur: DateTime, srv: Server, read: Reader, detect: Detector)
    requires Valid(cur) && cur.day == 1
    ensures var r := RunMonth(f, cur, srv, read, detect);
      && (forall t :: t in r.requested ==> t in MonthDays(cur) && !IsProcessed(f, t))
      && (forall t :: t in r.requested ==> ToInstant(cur) <= t < ToInstant(FirstOfNext(cur)))
      && (!r.crashed ==> forall t :: t in MonthDays(cur) && !IsProcessed(f, t) ==> t in r.requested)
      && Ascending(r.requested)
  {
    DownloadMonthFacts(f, srv, MonthDays(cur));
  }

  /** One month leaves the ledger untouched on a crash and otherwise appends
      to it, creating it with its header if it was absent: exactly the rows
      of the files downloaded into the month folder, in folder order. */
  lemma RunMonthLedger(f: File, cur: DateTime, srv: Server, read: Reader, detect: Detector)
    requires Valid(cur) && cur.day == 1
    ensures var r := RunMonth(f, cur, srv, read, detect);
      && (r.crashed ==> r.ledger == f)
      && (!r.crashed ==> r.ledger.Some?)
      && (WellFormed(f) ==> WellFormed(r.ledger))
      && (f.Some? ==> r.ledger.Some? && f.value <= r.ledger.value)
    ensures var r := RunMonth(f, cur, srv, read, detect);
      var d := DownloadMonth(f, srv, MonthDays(cur));
      !r.crashed ==> r.ledger == Some(OpenForAppend(f) + Written(Steps(Monthly, MonthFolder(cur), d.files, read, detect)))
  {
  }

  /** The outcome of the whole main loop: the ledger, every request sent (in
      order), the months whose body ran, whether the script died, and the
      value of `current_month` when the loop ended. */
  datatype PipelineRun = PipelineRun(ledger: File, requested: seq<Instant>, months: seq<DateTime>, crashed: bool, current: DateTime)

  /** Months counted from the start of the calendar. */
  function MonthIndex(dt: DateTime): int {
    dt.year * 12 + dt.month
  }

  /** The body of the main loop, run on the ledger and the first of a month.
      The loop's own structure does not depend on what the body does. */
  type Body = (File, DateTime) --> MonthRun

  /** The body can run on the first of every month. */
  ghost predicate Runs(body: Body) {
    forall g: File, c: DateTime :: Valid(c) && c.day == 1 ==> body.requires(g, c)
  }

  /** The script's body: `RunMonth` with this server, reader and detector. */
  function MonthBody(srv: Server, read: Reader, detect: Detector): (body: Body)
    ensures Runs(body)
  {
    (g: File, c: DateTime) requires Valid(c) && c.day == 1 => RunMonth(g, c, srv, read, detect)
  }

  /** `while current_month <= end_date: ...; current_month = next_month`,
      entered at the first of a month, where `next_month` is the first of the
      following month (`MonthStepFromFirst`). */
  function RunMonths(body: Body, f: File, cur: DateTime, end: Instant): (r: PipelineRun)
    requires Runs(body) && Valid(cur) && cur.day == 1
    ensures Valid(r.current) && r.current.day == 1
    ensures !r.crashed ==> ToInstant(r.current) > end
    ensures |r.months| > 0 ==> r.months[0] == cur && ToInstant(cur) <= end
    ensures |r.months| == 0 ==> ToInstant(cur) > end && r == PipelineRun(f, [], [], false, cur)
    decreases if ToInstant(cur) <= end then end - ToInstant(cur) + 1 else 0
  {
    if ToInstant(cur) > end then PipelineRun(f, [], [], false, cur)
    else
      var m := body(f, cur);
      if m.crashed then PipelineRun(f, m.requested, [cur], true, cur)
      else
        var rest := RunMonths(body, m.ledger, FirstOfNext(cur), end);
        PipelineRun(rest.ledger, m.requested + rest.requested, [cur] + rest.months, rest.crashed, rest.current)
  }

  /** `ms` are firsts of months not after `end`, each the first of the month
      after the one before. */
  predicate MonthChain(ms: seq<DateTime>, end: Instant)
    decreases |ms|
  {
    |ms| > 0 ==>
      && Valid(ms[0]) && ms[0].day == 1 && ToInstant(ms[0]) <= end
      && (|ms| > 1 ==> ms[1] == FirstOfNext(ms[0]))
      && MonthChain(ms[1..], end)
  }

  lemma {:induction false} MonthChainAt(ms: seq<DateTime>, end: Instant, k: nat)
    requires MonthChain(ms, end) && k < |ms|
    ensures Valid(ms[k]) && ms[k].day == 1 && ToInstant(ms[k]) <= end
    ensures k + 1 < |ms| ==> ms[k + 1] == FirstOfNext(ms[k])
  {
    if k > 0 {
      MonthChainAt(ms[1..], end, k - 1);
    }
  }

  /** The body runs for each month whose first is not after `end`, one
      calendar month after the other, until the first month after `end` or a
      crash. */
  lemma {:induction false} RunMonthsVisits(body: Body, f: File, cur: DateTime, end: Instant)
    requires Runs(body) && Valid(cur) && cur.day == 1
    ensures MonthChain(RunMonths(body, f, cur, end).months, end)
    decreases if ToInstant(cur) <= end then end - ToInstant(cur) + 1 else 0
  {
    if ToInstant(cur) <= end {
      var m := body(f, cur);
      if !m.crashed {
        var next := FirstOfNext(cur);
        RunMonthsVisits(body, m.ledger, next, end);
        var rest := RunMonths(body, m.ledger, next, end).months;
        assert ([cur] + rest)[1..] == rest;
      } else {
        assert [cur][1..] == [];
      }
    }
  }

  /** Without a crash the loop runs `|months|` months and ends at the first
      of the month after the last of them. */
  lemma {:induction false} RunMonthsStops(body: Body, f: File, cur: DateTime, end: Instant)
    requires Runs(body) && Valid(cur) && cur.day == 1
    ensures var r := RunMonths(body, f, cur, end);
      !r.crashed ==> MonthIndex(r.current) == MonthIndex(cur) + |r.months|
    decreases if ToInstant(cur) <= end then end - ToInstant(cur) + 1 else 0
  {
    if ToInstant(cur) <= end {
      var m := body(f, cur);
      if !m.crashed {
        var next := FirstOfNext(cur);
        RunMonthsStops(body, m.ledger, next, end);
        NextWithinMonth(cur);
      }
    }
  }

  /** The months the loop visits are consecutive calendar months, each
      reached from the one before by the script's own step
      `(current_month + timedelta(days=32)).replace(day=1)`. */
  lemma RunMonthsConsecutive(body: Body, f: File, cur: DateTime, end: Instant, k: nat)
    requires Runs(body) && Valid(cur) && cur.day == 1
    requires k + 1 < |RunMonths(body, f, cur, end).months|
    ensures var ms := RunMonths(body, f, cur, end).months;
      && Valid(ms[k]) && ms[k].day == 1
      && ms[k + 1] == MonthStep(ms[k])
      && MonthIndex(ms[k + 1]) == MonthIndex(ms[k]) + 1
  {
    var ms := RunMonths(body, f, cur, end).months;
    RunMonthsVisits(body, f, cur, end);
    MonthChainAt(ms, end, k);
    MonthStepFromFirst(ms[k]);
  }

  /** What one month may do to the ledger: nothing on a crash, and otherwise
      only append to it, keeping it well formed. */
  predicate LedgerStep(g: File, m: MonthRun) {
    && (m.crashed ==> m.ledger == g)
    && (WellFormed(g) ==> WellFormed(m.ledger))
    && (g.Some? ==> m.ledger.Some? && g.value <= m.ledger.value)
  }

  ghost predicate KeepsLedger(body: Body)
    requires Runs(body)
  {
    forall g: File, c: DateTime :: Valid(c) && c.day == 1 ==> LedgerStep(g, body(g, c))
  }

  /** What one month may request: only days of that month missing from the
      ledger it started from, in increasing order. */
  predicate RequestStep(g: File, c: DateTime, m: MonthRun)
    requires Valid(c) && c.day == 1
  {
    && (forall t :: t in m.requested ==> !IsProcessed(g, t) && ToInstant(c) <= t < ToInstant(FirstOfNext(c)))
    && Ascending(m.requested)
  }

  ghost predicate RequestsPending(body: Body)
    requires Runs(body)
  {
    forall g: File, c: DateTime :: Valid(c) && c.day == 1 ==> RequestStep(g, c, body(g, c))
  }

  /** What one month must request: unless it crashed, every day of the
      month missing from the ledger it started from. */
  predicate CompleteStep(g: File, c: DateTime, m: MonthRun)
    requires Valid(c) && c.day == 1
  {
    !m.crashed ==> forall t :: t in MonthDays(c) && !IsProcessed(g, t) ==> t in m.requested
  }

  ghost predicate RequestsAll(body: Body)
    requires Runs(body)
  {
    forall g: File, c: DateTime :: Valid(c) && c.day == 1 ==> CompleteStep(g, c, body(g, c))
  }

  /** The script's body keeps to all three. */
  lemma MonthBodySteps(srv: Server, read: Reader, detect: Detector)
    ensures KeepsLedger(MonthBody(srv, read, detect))
    ensures RequestsPending(MonthBody(srv, read, detect))
    ensures RequestsAll(MonthBody(srv, read, detect))
  {
    var body := MonthBody(srv, read, detect);
    forall g: File, c: DateTime | Valid(c) && c.day == 1
      ensures LedgerStep(g, body(g, c)) && RequestStep(g, c, body(g, c)) && CompleteStep(g, c, body(g, c))
    {
      RunMonthLedger(g, c, srv, read, detect);
      RunMonthRequests(g, c, srv, read, detect);
    }
  }

  /** The ledger only grows: it stays well formed and keeps every line it had. */
  lemma {:induction false} RunMonthsKeepsLedger(body: Body, f: File, cur: DateTime, end: Instant)
    requires Runs(body) && KeepsLedger(body) && Valid(cur) && cur.day == 1
    ensures var r := RunMonths(body, f, cur, end);
      && (WellFormed(f) ==> WellFormed(r.ledger))
      && (f.Some? ==> r.ledger.Some? && f.value <= r.ledger.value)
    decreases if ToInstant(cur) <= end then end - ToInstant(cur) + 1 else 0
  {
    if ToInstant(cur) <= end {
      var m := body(f, cur);
      assert LedgerStep(f, m);
      if !m.crashed {
        RunMonthsKeepsLedger(body, m.ledger, FirstOfNext(cur), end);
      }
    }
  }

  /** No day already in the starting ledger is ever requested; every request
      lies between the first month and 31 days after `end`; and the requests
      go out in strictly increasing order, so no day is requested twice. */
  lemma {:induction false} RunMonthsRequests(body: Body, f: File, cur: DateTime, end: Instant)
    requires Runs(body) && KeepsLedger(body) && RequestsPending(body) && Valid(cur) && cur.day == 1
    ensures var r := RunMonths(body, f, cur, end);
      && (forall t :: t in r.requested ==> !IsProcessed(f, t) && ToInstant(cur) <= t < end + 31 * Day)
      && Ascending(r.requested)
    decreases if ToInstant(cur) <= end then end - ToInstant(cur) + 1 else 0
  {
    if ToInstant(cur) <= end {
      var m := body(f, cur);
      assert LedgerStep(f, m) && RequestStep(f, cur, m);
      if !m.crashed {
        var next := FirstOfNext(cur);
        RunMonthsRequests(body, m.ledger, next, end);
        var rest := RunMonths(body, m.ledger, next, end);
        NextWithinMonth(cur);
        JoinRequests(f, m.ledger, ToInstant(cur), ToInstant(next), end + 31 * Day, m.requested, rest.requested);
        assert RunMonths(body, f, cur, end).requested == m.requested + rest.requested;
      }
    }
  }

  /** Every day of each month in `ms` was requested or is processed in `g`. */
  predicate MonthsCovered(ms: seq<DateTime>, requested: seq<Instant>, g: File) {
    forall k :: 0 <= k < |ms| ==>
      Valid(ms[k]) && ms[k].day == 1 && forall t :: t in MonthDays(ms[k]) ==> t in requested || IsProcessed(g, t)
  }

  /** Unless the script died, every day of every month the loop ran was
      either requested or is in the final ledger: a day is skipped only
      because the ledger already records it. */
  lemma {:induction false} RunMonthsComplete(body: Body, f: File, cur: DateTime, end: Instant)
    requires Runs(body) && KeepsLedger(body) && RequestsAll(body) && Valid(cur) && cur.day == 1
    ensures var r := RunMonths(body, f, cur, end);
      !r.crashed ==> MonthsCovered(r.months, r.requested, r.ledger)
    decreases if ToInstant(cur) <= end then end - ToInstant(cur) + 1 else 0
  {
    if ToInstant(cur) <= end {
      var m := body(f, cur);
      assert LedgerStep(f, m) && CompleteStep(f, cur, m);
      if !m.crashed {
        var next := FirstOfNext(cur);
        RunMonthsComplete(body, m.ledger, next, end);
        RunMonthsKeepsLedger(body, m.ledger, next, end);
        var rest := RunMonths(body, m.ledger, next, end);
        assert RunMonths(body, f, cur, end) == PipelineRun(rest.ledger, m.requested + rest.requested, [cur] + rest.months, rest.crashed, rest.current);
        if !rest.crashed {
          CoveredCons(f, rest.ledger, cur, m.requested, rest.months, rest.requested);
        }
      }
    }
  }

  /** One month covered against the ledger it started from, followed by
      later months covered against the final ledger, which extends it. */
  lemma CoveredCons(f: File, g: File, cur: DateTime, a: seq<Instant>, ms: seq<DateTime>, b: seq<Instant>)
    requires Valid(cur) && cur.day == 1
    requires f.Some? ==> g.Some? && f.value <= g.value
    requires forall t :: t in MonthDays(cur) && !IsProcessed(f, t) ==> t in a
    requires MonthsCovered(ms, b, g)
    ensures MonthsCovered([cur] + ms, a + b, g)
  {
    var all := [cur] + ms;
    forall k | 0 <= k < |all|
      ensures Valid(all[k]) && all[k].day == 1
      ensures forall t :: t in MonthDays(all[k]) ==> t in a + b || IsProcessed(g, t)
    {
      if k == 0 {
        forall t | t in MonthDays(cur) ensures t in a + b || IsProcessed(g, t) {
          if IsProcessed(f, t) {
            NeverUnprocessed(f, g, t);
          }
        }
      } else {
        assert all[k] == ms[k - 1];
      }
    }
  }

  /** The requests of one month, followed by those of the later months made
      against the grown ledger, are pending in the first ledger, in range and
      ascending. */
  lemma JoinRequests(f: File, g: File, lo: Instant, mid: Instant, hi: Instant, a: seq<Instant>, b: seq<Instant>)
    requires f.Some? ==> g.Some? && f.value <= g.value
    requires lo <= mid <= hi
    requires forall t :: t in a ==> !IsProcessed(f, t) && lo <= t < mid
    requires forall t :: t in b ==> !IsProcessed(g, t) && mid <= t < hi
    requires Ascending(a) && Ascending(b)
    ensures forall t :: t in a + b ==> !IsProcessed(f, t) && lo <= t < hi
    ensures Ascending(a + b)
  {
    forall t | t in b ensures !IsProcessed(f, t) {
      if IsProcessed(f, t) {
        NeverUnprocessed(f, g, t);
      }
    }
    AscendingConcat(a, b, mid);
  }

  /** The first of the next month is the next month, and lies after `cur`
      and at most 31 days later. */
  lemma NextWithinMonth(cur: DateTime)
    requires Valid(cur) && cur.day == 1
    ensures MonthIndex(FirstOfNext(cur)) == MonthIndex(cur) + 1
    ensures ToInstant(cur) < ToInstant(FirstOfNext(cur)) <= ToInstant(cur) + 31 * Day
  {
  }

  /** A day processed in a ledger stays processed in any extension of it. */
  lemma NeverUnprocessed(f: File, g: File, t: Instant)
    requires f.Some? && g.Some? && f.value <= g.value && IsProcessed(f, t)
    ensures IsProcessed(g, t)
  {
    ProcessedPersists(f.value, g.value[|f.value|..], t);
    assert f.value + g.value[|f.value|..] == g.value;
  }

  lemma AscendingConcat(a: seq<Instant>, b: seq<Instant>, mid: Instant)
    requires Ascending(a) && Ascending(b)
    requires forall t :: t in a ==> t < mid
    requires forall t :: t in b ==> mid <= t
    ensures Ascending(a + b)
  {
    var all := a + b;
    forall i, j | 0 <= i < j < |all| ensures all[i] < all[j] {
      if i < |a| && j >= |a| {
        assert all[i] == a[i] && a[i] in a;
        assert all[j] == b[j - |a|] && b[j - |a|] in b;
      } else if i >= |a| {
        assert all[i] == b[i - |a|] && all[j] == b[j - |a|];
      }
    }
  }

  /** The script from `start` to `end`: the loop starts at the first of the
      start month. */
  function RunPipeline(f: File, start: DateTime, end: DateTime, srv: Server, read: Reader, detect: Detector)
    : (r: PipelineRun)
    requires Valid(start) && Valid(end)
    ensures forall t :: t in r.requested ==> !IsProcessed(f, t)
    ensures !r.crashed ==> MonthsCovered(r.months, r.requested, r.ledger)
    ensures |r.months| > 0 ==> r.months[0] == start.(day := 1)
    ensures Valid(r.current) && r.current.day == 1
    ensures !r.crashed ==> ToInstant(r.current) > ToInstant(end)
    ensures MonthChain(r.months, ToInstant(end))
  {
    MonthBodySteps(srv, read, detect);
    RunMonthsVisits(MonthBody(srv, read, detect), f, start.(day := 1), ToInstant(end));
    RunMonthsRequests(MonthBody(srv, read, detect), f, start.(day := 1), ToInstant(end));
    RunMonthsComplete(MonthBody(srv, read, detect), f, start.(day := 1), ToInstant(end));
    RunMonths(MonthBody(srv, read, detect), f, start.(day := 1), ToInstant(end))
  }

  /** The script's own run, from 2021-09-01 to 2025-02-25: it starts with
      September 2021, and it requests only days missing from the starting
      ledger, none before the start date and none 31 days or more after the
      end date. */
  lemma ScriptRun(f: File, srv: Server, read: Reader, detect: Detector)
    ensures Valid(StartDate) && Valid(EndDate)
    ensures var r := RunPipeline(f, StartDate, EndDate, srv, read, detect);
      && |r.months| > 0 && r.months[0] == StartDate
      && (forall t :: t in r.requested ==> !IsProcessed(f, t) && ToInstant(StartDate) <= t < ToInstant(EndDate) + 31 * Day)
  {
    assert ToInstant(StartDate) <= ToInstant(EndDate);
    MonthBodySteps(srv, read, detect);
    RunMonthsRequests(MonthBody(srv, read, detect), f, StartDate, ToInstant(EndDate));
  }
}

=== FILE: process.dfy ===
/** The per-file loop that turns a folder of SAC files into ledger rows:
    `process_seismic_data` of the monthly pipeline and the standalone script
    `test_part2.py`. Reading a file and the signal processing are given
    functions; what is modelled is which files produce a row, what the row
    holds, and what the exception handlers do. */
module Process {
  import opened Options
  import opened Civil
  import opened Paths
  import opened Triggers
  import opened Ledger

  /** The metadata of one decoded trace; its samples stay with the detector. */
  datatype Trace = Trace(station: string, startTime: Instant, endTime: Instant)

  /** What `obspy.read(path)` gives: the stream's traces, or an exception. */
  datatype Stream = Unreadable | Loaded(traces: seq<Trace>)

  type Reader = string -> Stream

  /** The 5 Hz, two-corner, zero-phase high-pass filter applied to every trace,
      then `classic_sta_lta` with 1 s and 10 s windows and
      `trigger_onset(cft, 8, 0.5)` on the first trace: the (onset, offset)
      pairs in detector order, or `None` when any of these steps raised. */
  type Detector = seq<Trace> -> Option<seq<Pair>>

  const SacSuffix: string := ".SAC"

  /** The two copies of the loop: `process_seismic_data` writes the bare file
      name and logs every failure; `test_part2.py` writes the joined path and
      its handler reads the module-level `trace`, which may not be bound yet. */
  datatype Script = Monthly | Standalone

  /** What one directory entry does. */
  datatype FileStep =
    | NotSac            // the name does not end in `.SAC`: ignored
    | NoTraces          // the stream is empty: skipped before `trace` is bound
    | ReadFailed        // `read` raised: handled before `trace` is bound
    | DetectFailed      // filtering or detection raised after `trace = stream[0]`
    | Wrote(row: Row)   // one row appended

  /** The body of the loop for the entry `name` of folder `dir`. */
  function StepFile(s: Script, dir: string, name: string, read: Reader, detect: Detector): (st: FileStep)
    ensures st == NotSac <==> !EndsWith(name, SacSuffix)
    ensures st == ReadFailed <==> EndsWith(name, SacSuffix) && read(JoinPath(dir, name)).Unreadable?
    ensures st == NoTraces <==> EndsWith(name, SacSuffix) && read(JoinPath(dir, name)) == Loaded([])
    ensures st == DetectFailed <==> EndsWith(name, SacSuffix) && read(JoinPath(dir, name)).Loaded?
                                    && |read(JoinPath(dir, name)).traces| > 0 && detect(read(JoinPath(dir, name)).traces).None?
    ensures st.Wrote? <==> EndsWith(name, SacSuffix) && read(JoinPath(dir, name)).Loaded?
                           && |read(JoinPath(dir, name)).traces| > 0 && detect(read(JoinPath(dir, name)).traces).Some?
    ensures st.Wrote? ==> EndsWith(st.row.sacFile, SacSuffix) && Consistent(st.row)
    ensures st.Wrote? && s == Monthly ==> st.row.sacFile == name
    ensures st.Wrote? && s == Standalone ==> st.row.sacFile == JoinPath(dir, name)
    ensures st.Wrote? ==> exists ts: seq<Trace>, ps: seq<Pair> :: read(JoinPath(dir, name)) == Loaded(ts) && |ts| > 0
                            && detect(ts) == Some(ps) && st.row.triggerCount == |ps|
                            && Parse(st.row.triggerTimes) == Some(ps)
                            && st.row.station == ts[0].station
                            && st.row.startTime == ts[0].startTime && st.row.endTime == ts[0].endTime
  {
    if !EndsWith(name, SacSuffix) then NotSac
    else
      var path := JoinPath(dir, name);
      match read(path)
      case Unreadable => ReadFailed
      case Loaded(ts) =>
        if |ts| == 0 then NoTraces
        else
          match detect(ts)
          case None => DetectFailed
          case Some(ps) =>
            JoinKeepsSuffix(dir, name, SacSuffix);
            var file := if s == Monthly then name else path;
            Wrote(RowFor(file, ts[0].station, ts[0].startTime, ts[0].endTime, ps))
  }

  /** The step of each entry of a listing, in listing order. */
  function MapSteps(step: string -> FileStep, names: seq<string>): (sts: seq<FileStep>)
    ensures |sts| == |names|
    ensures forall k :: 0 <= k < |names| ==> sts[k] == step(names[k])
  {
    seq(|names|, k requires 0 <= k < |names| => step(names[k]))
  }

  /** The steps one script takes over the listing `names` of folder `dir`. */
  function Steps(s: Script, dir: string, names: seq<string>, read: Reader, detect: Detector): (sts: seq<FileStep>)
    ensures |sts| == |names|
    ensures forall k :: 0 <= k < |names| ==> sts[k] == StepFile(s, dir, names[k], read, detect)
  {
    MapSteps(n => StepFile(s, dir, n, read, detect), names)
  }

  /** A row as the loop writes it: its file name ends in `.SAC` and its
      trigger text reads back to `Number_of_Triggers` pairs. */
  predicate GoodRow(r: Row) {
    EndsWith(r.sacFile, SacSuffix) && Consistent(r)
  }

  predicate GoodSteps(sts: seq<FileStep>) {
    forall k :: 0 <= k < |sts| && sts[k].Wrote? ==> GoodRow(sts[k].row)
  }

  lemma StepsGood(s: Script, dir: string, names: seq<string>, read: Reader, detect: Detector)
    ensures GoodSteps(Steps(s, dir, names, read, detect))
  {
  }

  /** The rows appended so far and whether an exception has ended the script. */
  datatype Progress = Progress(lines: seq<Line>, halted: bool)

  /** The loop over the remaining steps, appending to `lines`; `bound` records
      whether an earlier iteration bound `trace`. A read failure in
      `test_part2.py` while `trace` is unbound ends the script (NameError). */
  function Entries(s: Script, sts: seq<FileStep>, lines: seq<Line>, bound: bool): (p: Progress)
    ensures lines <= p.lines
    ensures |p.lines| <= |lines| + |sts|
    ensures GoodSteps(sts) ==> forall i :: |lines| <= i < |p.lines| ==> p.lines[i].Record? && GoodRow(p.lines[i].row)
    ensures s == Monthly ==> !p.halted
    ensures p.halted ==> !bound && p.lines == lines
    decreases |sts|
  {
    if |sts| == 0 then Progress(lines, false)
    else
      var rest := sts[1..];
      assert GoodSteps(sts) ==> GoodSteps(rest) by {
        if GoodSteps(sts) {
          forall k | 0 <= k < |rest| && rest[k].Wrote? ensures GoodRow(rest[k].row) {
            assert rest[k] == sts[k + 1];
          }
        }
      }
      match sts[0]
      case Wrote(row) => Entries(s, rest, lines + [Record(row)], true)
      case DetectFailed => Entries(s, rest, lines, true)
      case ReadFailed =>
        if s == Standalone && !bound then Progress(lines, true)
        else Entries(s, rest, lines, bound)
      case _ => Entries(s, rest, lines, bound)
  }

  /** One run of the script over the folder listing `names` (in `os.listdir`
      order): the ledger afterwards, and whether the script died in its
      exception handler. */
  function ProcessFolder(s: Script, f: File, dir: string, names: seq<string>, read: Reader, detect: Detector)
    : (r: (File, bool))
    ensures r.0.Some?
    ensures WellFormed(f) ==> WellFormed(r.0)
    ensures f.None? ==> r.0.value[0] == Header
    ensures f.Some? ==> f.value <= r.0.value
    ensures forall i :: |OpenForAppend(f)| <= i < |r.0.value| ==> r.0.value[i].Record? && GoodRow(r.0.value[i].row)
    ensures s == Monthly ==> !r.1
    ensures r.1 ==> r.0 == Some(OpenForAppend(f))
    ensures !r.1 ==> r.0 == Some(OpenForAppend(f) + Written(Steps(s, dir, names, read, detect)))
  {
    StepsGood(s, dir, names, read, detect);
    AppendsWritten(s, Steps(s, dir, names, read, detect), OpenForAppend(f), false);
    var p := Entries(s, Steps(s, dir, names, read, detect), OpenForAppend(f), false);
    (Some(p.lines), p.halted)
  }

  /** The rows the steps produce, in order, ignoring halts. */
  function Written(sts: seq<FileStep>): seq<Line>
  {
    if |sts| == 0 then []
    else (if sts[0].Wrote? then [Record(sts[0].row)] else []) + Written(sts[1..])
  }

  /** Unless the script died, the loop appends exactly one row per step that
      writes one, in listing order, and nothing else; the monthly copy never
      dies. */
  lemma {:induction false} AppendsWritten(s: Script, sts: seq<FileStep>, lines: seq<Line>, bound: bool)
    ensures !Entries(s, sts, lines, bound).halted ==> Entries(s, sts, lines, bound).lines == lines + Written(sts)
    ensures s == Monthly ==> Entries(s, sts, lines, bound).lines == lines + Written(sts)
    decreases |sts|
  {
    if |sts| > 0 {
      var w := Written(sts[1..]);
      if sts[0].Wrote? {
        AppendsWritten(s, sts[1..], lines + [Record(sts[0].row)], true);
        AppendAssoc(lines, [Record(sts[0].row)], w);
      } else if sts[0] == ReadFailed && s == Standalone && !bound {
      } else {
        AppendsWritten(s, sts[1..], lines, if sts[0].DetectFailed? then true else bound);
        AppendAssoc(lines, [], w);
      }
    }
  }

  lemma AppendAssoc(a: seq<Line>, b: seq<Line>, c: seq<Line>)
    ensures a + b + c == a + (b + c) && (b == [] ==> a + (b + c) == a + c && a + b == a)
  {
  }

  /** The steps other than ignored entries, in order. */
  function DropIgnored(sts: seq<FileStep>): (r: seq<FileStep>)
    ensures |r| <= |sts|
    ensures forall k :: 0 <= k < |r| ==> r[k] != NotSac
  {
    if |sts| == 0 then []
    else (if sts[0] == NotSac then [] else [sts[0]]) + DropIgnored(sts[1..])
  }

  /** Ignored entries play no part in the loop. */
  lemma {:induction false} IgnoredPlayNoPart(s: Script, sts: seq<FileStep>, lines: seq<Line>, bound: bool)
    ensures Entries(s, sts, lines, bound) == Entries(s, DropIgnored(sts), lines, bound)
    decreases |sts|
  {
    if |sts| > 0 {
      var d := DropIgnored(sts);
      var dt := DropIgnored(sts[1..]);
      if sts[0] == NotSac {
        assert d == dt;
        IgnoredPlayNoPart(s, sts[1..], lines, bound);
      } else {
        assert d[0] == sts[0] && d[1..] == dt;
        if sts[0].Wrote? {
          IgnoredPlayNoPart(s, sts[1..], lines + [Record(sts[0].row)], true);
        } else if sts[0].DetectFailed? {
          IgnoredPlayNoPart(s, sts[1..], lines, true);
        } else {
          IgnoredPlayNoPart(s, sts[1..], lines, bound);
        }
      }
    }
  }

  /** The entries whose name ends in `.SAC`, in order. */
  function SacOnly(names: seq<string>): (r: seq<string>)
    ensures |r| <= |names|
    ensures forall k :: 0 <= k < |r| ==> EndsWith(r[k], SacSuffix)
    ensures forall n :: n in r <==> n in names && EndsWith(n, SacSuffix)
  {
    if |names| == 0 then []
    else (if EndsWith(names[0], SacSuffix) then [names[0]] else []) + SacOnly(names[1..])
  }

  lemma {:induction false} MapSacOnly(step: string -> FileStep, names: seq<string>)
    requires forall n :: step(n) == NotSac <==> !EndsWith(n, SacSuffix)
    ensures MapSteps(step, SacOnly(names)) == DropIgnored(MapSteps(step, names))
    decreases |names|
  {
    if |names| > 0 {
      var sts := MapSteps(step, names);
      MapSacOnly(step, names[1..]);
      assert sts[1..] == MapSteps(step, names[1..]);
      var a := MapSteps(step, SacOnly(names));
      if EndsWith(names[0], SacSuffix) {
        assert SacOnly(names) == [names[0]] + SacOnly(names[1..]);
        assert a[1..] == MapSteps(step, SacOnly(names[1..]));
      } else {
        assert SacOnly(names) == SacOnly(names[1..]);
      }
    }
  }

  /** A folder run depends only on its `.SAC` entries: any other file in the
      folder changes nothing. */
  lemma OnlySacFilesCount(s: Script, f: File, dir: string, names: seq<string>, read: Reader, detect: Detector)
    ensures ProcessFolder(s, f, dir, names, read, detect) == ProcessFolder(s, f, dir, SacOnly(names), read, detect)
  {
    MapSacOnly(n => StepFile(s, dir, n, read, detect), names);
    IgnoredPlayNoPart(s, Steps(s, dir, names, read, detect), OpenForAppend(f), false);
  }

  /** A file whose stream holds no trace writes no row and binds no `trace`. */
  lemma EmptyStreamSkipped(s: Script, dir: string, name: string, read: Reader, detect: Detector)
    requires EndsWith(name, SacSuffix) && read(JoinPath(dir, name)) == Loaded([])
    ensures StepFile(s, dir, name, read, detect) == NoTraces
    ensures forall rest, lines, bound :: Entries(s, [NoTraces] + rest, lines, bound) == Entries(s, rest, lines, bound)
  {
    forall rest, lines, bound ensures Entries(s, [NoTraces] + rest, lines, bound) == Entries(s, rest, lines, bound) {
      assert ([NoTraces] + rest)[1..] == rest;
    }
  }

  /** In `test_part2.py` a failed read is fatal exactly when no earlier entry
      bound `trace`: the handler's `len(trace.data)` then raises NameError.
      The script dies iff some entry fails to read while every entry before it
      was ignored or held no trace. */
  lemma {:induction false} StandaloneHaltsIff(sts: seq<FileStep>, lines: seq<Line>)
    ensures Entries(Standalone, sts, lines, false).halted <==>
      exists i :: 0 <= i < |sts| && sts[i] == ReadFailed && forall j :: 0 <= j < i ==> sts[j] in {NotSac, NoTraces}
    decreases |sts|
  {
    if |sts| > 0 {
      var tail := sts[1..];
      var p := Entries(Standalone, sts, lines, false);
      if sts[0] == NotSac || sts[0] == NoTraces {
        StandaloneHaltsIff(tail, lines);
        assert p == Entries(Standalone, tail, lines, false);
        if p.halted {
          var i :| 0 <= i < |tail| && tail[i] == ReadFailed && forall j :: 0 <= j < i ==> tail[j] in {NotSac, NoTraces};
          assert sts[i + 1] == ReadFailed;
          assert forall j :: 0 <= j < i + 1 ==> sts[j] in {NotSac, NoTraces} by {
            forall j | 0 <= j < i + 1 ensures sts[j] in {NotSac, NoTraces} {
              if j > 0 {
                assert sts[j] == tail[j - 1];
              }
            }
          }
        } else {
          forall i | 0 <= i < |sts| && sts[i] == ReadFailed
            ensures exists j :: 0 <= j < i && sts[j] !in {NotSac, NoTraces}
          {
            assert sts[i] == tail[i - 1];
            var j :| 0 <= j < i - 1 && tail[j] !in {NotSac, NoTraces};
            assert sts[j + 1] == tail[j];
          }
        }
      } else if sts[0] == ReadFailed {
        assert p.halted;
      } else {
        assert !p.halted;
      }
    }
  }

  /** Running the script once per batch of files, starting from any ledger. */
  function ProcessBatches(s: Script, f: File, batches: seq<(string, seq<string>)>, read: Reader, detect: Detector): (r: File)
    ensures WellFormed(f) ==> WellFormed(r)
    ensures |batches| > 0 ==> r.Some?
    decreases |batches|
  {
    if |batches| == 0 then f
    else ProcessBatches(s, ProcessFolder(s, f, batches[0].0, batches[0].1, read, detect).0, batches[1..], read, detect)
  }

  /** However many runs append to a ledger that starts absent, it ends with
      exactly one header, on its first line. */
  lemma HeaderOnceAcrossRuns(s: Script, batches: seq<(string, seq<string>)>, read: Reader, detect: Detector)
    requires |batches| > 0
    ensures var r := ProcessBatches(s, None, batches, read, detect);
      r.Some? && r.value[0] == Header && HeaderCount(r.value) == 1
  {
    WellFormedHeaderOnce(ProcessBatches(s, None, batches, read, detect));
  }
}

=== FILE: stamp.dfy ===
/** The text forms of date-times used in requests and folder names:
    `strftime("%Y-%m-%dT%H:%M:%S")` and `strftime("%Y-%m")`. */
module Stamp {
  import opened Options
  import opened Decimal
  import opened Civil

  /** Python's year range ends at 9999, the widest year `%Y` writes in four digits. */
  const MaxYear: int := 9999

  /** `dt.strftime("%Y-%m-%dT%H:%M:%S")`. */
  function Format(dt: DateTime): string
    requires Valid(dt)
  {
    DateText(dt) + "T" + TimeText(dt)
  }

  /** `%Y-%m-%d`. */
  function DateText(dt: DateTime): string
    requires Valid(dt)
  {
    Pad(dt.year, 4) + "-" + Pad(dt.month, 2) + "-" + Pad(dt.day, 2)
  }

  /** `%H:%M:%S`. */
  function TimeText(dt: DateTime): string
    requires Valid(dt)
  {
    Pad(dt.hour, 2) + ":" + Pad(dt.minute, 2) + ":" + Pad(dt.second, 2)
  }

  /** `dt.strftime("%Y-%m")`. */
  function FormatYearMonth(dt: DateTime): string
    requires Valid(dt)
  {
    Pad(dt.year, 4) + "-" + Pad(dt.month, 2)
  }

  predicate DigitsAt(s: string, i: nat, j: nat)
    requires i <= j <= |s|
  {
    AllDigits(s[i..j])
  }

  /** Reads the `Format` layout back; `None` for any other text or an impossible date. */
  function Parse(s: string): (r: Option<DateTime>)
    ensures r.Some? ==> Valid(r.value) && r.value.year <= MaxYear && Format(r.value) == s
  {
    if |s| == 19 && s[4] == '-' && s[7] == '-' && s[10] == 'T' && s[13] == ':' && s[16] == ':'
       && DigitsAt(s, 0, 4) && DigitsAt(s, 5, 7) && DigitsAt(s, 8, 10)
       && DigitsAt(s, 11, 13) && DigitsAt(s, 14, 16) && DigitsAt(s, 17, 19)
    then
      var dt := DateTime(Value(s[0..4]), Value(s[5..7]), Value(s[8..10]),
                         Value(s[11..13]), Value(s[14..16]), Value(s[17..19]));
      if Valid(dt) then
        ReadBack(s);
        Some(dt)
      else None
    else None
  }

  /** Reads the `FormatYearMonth` layout back. */
  function ParseYearMonth(s: string): (r: Option<(int, int)>)
  {
    if |s| == 7 && s[4] == '-' && DigitsAt(s, 0, 4) && DigitsAt(s, 5, 7)
    then Some((Value(s[0..4]), Value(s[5..7])))
    else None
  }

  /** A text of the `Format` layout is the format of the fields read from it. */
  lemma ReadBack(s: string)
    requires |s| == 19 && s[4] == '-' && s[7] == '-' && s[10] == 'T' && s[13] == ':' && s[16] == ':'
    requires DigitsAt(s, 0, 4) && DigitsAt(s, 5, 7) && DigitsAt(s, 8, 10)
    requires DigitsAt(s, 11, 13) && DigitsAt(s, 14, 16) && DigitsAt(s, 17, 19)
    requires Valid(DateTime(Value(s[0..4]), Value(s[5..7]), Value(s[8..10]),
                            Value(s[11..13]), Value(s[14..16]), Value(s[17..19])))
    ensures Value(s[0..4]) <= MaxYear
    ensures Format(DateTime(Value(s[0..4]), Value(s[5..7]), Value(s[8..10]),
                            Value(s[11..13]), Value(s[14..16]), Value(s[17..19]))) == s
  {
    PadOfValue(s[0..4]);
    ValueBound(s[0..4]);
    assert Pow10(4) == 10000;
    PadOfValue(s[5..7]);
    PadOfValue(s[8..10]);
    PadOfValue(s[11..13]);
    PadOfValue(s[14..16]);
    PadOfValue(s[17..19]);
    SplitStamp(s);
  }

  lemma SplitStamp(s: string)
    requires |s| == 19 && s[4] == '-' && s[7] == '-' && s[10] == 'T' && s[13] == ':' && s[16] == ':'
    ensures s == (s[0..4] + "-" + s[5..7] + "-" + s[8..10]) + "T" + (s[11..13] + ":" + s[14..16] + ":" + s[17..19])
  {
  }

  lemma PadOfValue(s: string)
    requires AllDigits(s)
    ensures Pad(Value(s), |s|) == s
  {
    ValueBound(s);
    FixedOfValue(s);
  }

  lemma PadWidth(n: nat, w: nat)
    requires n < Pow10(w)
    ensures |Pad(n, w)| == w && Value(Pad(n, w)) == n
  {
  }

  /** Every request time the source can produce reads back to itself. */
  lemma ParseFormat(dt: DateTime)
    requires Valid(dt) && dt.year <= MaxYear
    ensures |Format(dt)| == 19
    ensures Parse(Format(dt)) == Some(dt)
  {
    FormatFields(dt);
  }

  /** The six fields of a formatted date-time sit at fixed places and read
      back to the date-time's fields. */
  lemma FormatFields(dt: DateTime)
    requires Valid(dt) && dt.year <= MaxYear
    ensures var s := Format(dt);
      && |s| == 19 && s[4] == '-' && s[7] == '-' && s[10] == 'T' && s[13] == ':' && s[16] == ':'
      && DigitsAt(s, 0, 4) && Value(s[0..4]) == dt.year
      && DigitsAt(s, 5, 7) && Value(s[5..7]) == dt.month
      && DigitsAt(s, 8, 10) && Value(s[8..10]) == dt.day
      && DigitsAt(s, 11, 13) && Value(s[11..13]) == dt.hour
      && DigitsAt(s, 14, 16) && Value(s[14..16]) == dt.minute
      && DigitsAt(s, 17, 19) && Value(s[17..19]) == dt.second
  {
    FormatSlices(dt);
  }

  lemma FormatSlices(dt: DateTime)
    requires Valid(dt) && dt.year <= MaxYear
    ensures var s := Format(dt);
      && |s| == 19 && s[4] == '-' && s[7] == '-' && s[10] == 'T' && s[13] == ':' && s[16] == ':'
      && s[0..4] == Pad(dt.year, 4) && Value(Pad(dt.year, 4)) == dt.year
      && s[5..7] == Pad(dt.month, 2) && Value(Pad(dt.month, 2)) == dt.month
      && s[8..10] == Pad(dt.day, 2) && Value(Pad(dt.day, 2)) == dt.day
      && s[11..13] == Pad(dt.hour, 2) && Value(Pad(dt.hour, 2)) == dt.hour
      && s[14..16] == Pad(dt.minute, 2) && Value(Pad(dt.minute, 2)) == dt.minute
      && s[17..19] == Pad(dt.second, 2) && Value(Pad(dt.second, 2)) == dt.second
  {
    DateSlices(dt);
    TimeSlices(dt);
    JoinSlices(DateText(dt), TimeText(dt));
  }

  lemma JoinSlices(d: string, t: string)
    requires |d| == 10 && |t| == 8
    ensures var s := d + "T" + t;
      && |s| == 19 && s[4] == d[4] && s[7] == d[7] && s[10] == 'T' && s[13] == t[2] && s[16] == t[5]
      && s[0..4] == d[0..4] && s[5..7] == d[5..7] && s[8..10] == d[8..10]
      && s[11..13] == t[0..2] && s[14..16] == t[3..5] && s[17..19] == t[6..8]
  {
  }

  lemma DateSlices(dt: DateTime)
    requires Valid(dt) && dt.year <= MaxYear
    ensures var d := DateText(dt);
      && |d| == 10 && d[4] == '-' && d[7] == '-'
      && d[0..4] == Pad(dt.year, 4) && Value(Pad(dt.year, 4)) == dt.year
      && d[5..7] == Pad(dt.month, 2) && Value(Pad(dt.month, 2)) == dt.month
      && d[8..10] == Pad(dt.day, 2) && Value(Pad(dt.day, 2)) == dt.day
  {
    assert Pow10(2) == 100 && Pow10(4) == 10000;
    PadWidth(dt.year, 4);
    PadWidth(dt.month, 2);
    PadWidth(dt.day, 2);
  }

  lemma TimeSlices(dt: DateTime)
    requires Valid(dt)
    ensures var t := TimeText(dt);
      && |t| == 8 && t[2] == ':' && t[5] == ':'
      && t[0..2] == Pad(dt.hour, 2) && Value(Pad(dt.hour, 2)) == dt.hour
      && t[3..5] == Pad(dt.minute, 2) && Value(Pad(dt.minute, 2)) == dt.minute
      && t[6..8] == Pad(dt.second, 2) && Value(Pad(dt.second, 2)) == dt.second
  {
    assert Pow10(2) == 100;
    PadWidth(dt.hour, 2);
    PadWidth(dt.minute, 2);
    PadWidth(dt.second, 2);
  }

  lemma ParseFormatInRange(dt: DateTime)
    requires Valid(dt)
    ensures dt.year <= MaxYear ==> Parse(Format(dt)) == Some(dt)
  {
    if dt.year <= MaxYear {
      ParseFormat(dt);
    }
  }

  /** Distinct date-times have distinct request texts. */
  lemma FormatInjective(a: DateTime, b: DateTime)
    requires Valid(a) && a.year <= MaxYear && Valid(b) && b.year <= MaxYear
    ensures Format(a) == Format(b) <==> a == b
  {
    ParseFormat(a);
    ParseFormat(b);
  }

  lemma ParseFormatYearMonth(dt: DateTime)
    requires Valid(dt) && dt.year <= MaxYear
    ensures |FormatYearMonth(dt)| == 7
    ensures ParseYearMonth(FormatYearMonth(dt)) == Some((dt.year, dt.month))
  {
    assert Pow10(2) == 100 && Pow10(4) == 10000;
    var s := FormatYearMonth(dt);
    PadWidth(dt.year, 4);
    PadWidth(dt.month, 2);
    assert s[0..4] == Pad(dt.year, 4);
    assert s[5..7] == Pad(dt.month, 2);
  }

  /** `%Y-%m` names a month: two date-times share it exactly when they share
      year and month, whatever their day and time of day. */
  lemma YearMonthIdentifiesMonth(a: DateTime, b: DateTime)
    requires Valid(a) && a.year <= MaxYear && Valid(b) && b.year <= MaxYear
    ensures FormatYearMonth(a) == FormatYearMonth(b) <==> (a.year, a.month) == (b.year, b.month)
  {
    ParseFormatYearMonth(a);
    ParseFormatYearMonth(b);
  }
}

=== FILE: triggers.dfy ===
/** The `Trigger_Times` text of a ledger row:
    `', '.join(str(time) for time in onset_times)`, where each `time` is one
    row of the integer array returned by ObsPy's `trigger_onset`, and the text
    read back into the detector's pairs. */
module Triggers {
  import opened Options
  import opened Decimal

  /** One detected interval: the sample indices where the STA/LTA ratio rose
      above the onset threshold and where it fell below the offset threshold. */
  datatype Pair = Pair(onset: nat, offset: nat)

  function Spaces(k: nat): (s: string)
    ensures |s| == k && forall i :: 0 <= i < k ==> s[i] == ' '
  {
    seq(k, _ => ' ')
  }

  /** Right-aligns `s` in a field of width `w`. */
  function LeftPad(s: string, w: nat): (p: string)
    requires |s| <= w
    ensures |p| == w
  {
    Spaces(w - |s|) + s
  }

  /** `str()` of a two-element integer array: both numbers right-aligned in the
      width of the wider one, separated by a space, in brackets (`[  5 123]`). */
  function PairText(p: Pair): string {
    "[" + PairFields(p) + "]"
  }

  /** The text between the brackets of `PairText`. */
  function PairFields(p: Pair): string {
    var a := Dec(p.onset);
    var b := Dec(p.offset);
    var w := if |a| >= |b| then |a| else |b|;
    LeftPad(a, w) + (" " + LeftPad(b, w))
  }

  const Separator: string := ", "

  /** `', '.join(...)` over the pairs, in detector order. */
  function Join(ps: seq<Pair>): (s: string)
    ensures |ps| == 0 <==> |s| == 0
  {
    if |ps| == 0 then ""
    else if |ps| == 1 then PairText(ps[0])
    else PairText(ps[0]) + Separator + Join(ps[1..])
  }

  /** `s` without its leading spaces. */
  function DropSpaces(s: string): (r: string)
    ensures |r| <= |s| && r == s[|s| - |r|..]
    ensures |r| > 0 ==> r[0] != ' '
  {
    if |s| > 0 && s[0] == ' ' then DropSpaces(s[1..]) else s
  }

  /** The longest prefix of `s` made of digits. */
  function TakeDigits(s: string): (d: string)
    ensures |d| <= |s| && d == s[..|d|] && AllDigits(d)
  {
    if |s| > 0 && IsDigit(s[0]) then [s[0]] + TakeDigits(s[1..]) else ""
  }

  /** Position of the first comma in `s`, or `|s|` when there is none. */
  function CommaAt(s: string): (i: nat)
    ensures i <= |s|
  {
    if |s| == 0 || s[0] == ',' then 0 else 1 + CommaAt(s[1..])
  }

  /** Reads one bracketed pair back. */
  function ParsePair(s: string): Option<Pair> {
    if |s| >= 2 && s[0] == '[' && s[|s| - 1] == ']' then ParseFields(s[1..|s| - 1]) else None
  }

  /** Reads two space-separated numbers, each possibly preceded by spaces. */
  function ParseFields(x: string): Option<Pair> {
    var a := DropSpaces(x);
    var d1 := TakeDigits(a);
    var rest := a[|d1|..];
    var b := DropSpaces(rest);
    var d2 := TakeDigits(b);
    if |d1| > 0 && |d2| > 0 && |b| < |rest| && |d2| == |b| then Some(Pair(Value(d1), Value(d2)))
    else None
  }

  /** Reads a whole `Trigger_Times` text back into pairs. */
  function Parse(s: string): Option<seq<Pair>>
    decreases |s|
  {
    if |s| == 0 then Some([])
    else
      var i := CommaAt(s);
      match ParsePair(s[..i])
      case None => None
      case Some(p) =>
        if i == |s| then Some([p])
        else if i + 2 < |s| && s[i + 1] == ' ' then
          match Parse(s[i + 2..])
          case None => None
          case Some(ps) => Some([p] + ps)
        else None
  }

  lemma {:induction false} DropSpacesPrefix(k: nat, t: string)
    ensures DropSpaces(Spaces(k) + t) == DropSpaces(t)
  {
    if k > 0 {
      var s := Spaces(k) + t;
      assert s[0] == ' ';
      assert s[1..] == Spaces(k - 1) + t;
      DropSpacesPrefix(k - 1, t);
    } else {
      assert Spaces(k) + t == t;
    }
  }

  lemma DropSpacesNone(t: string)
    requires |t| > 0 && t[0] != ' '
    ensures DropSpaces(t) == t
  {
  }

  lemma {:induction false} TakeDigitsPrefix(d: string, t: string)
    requires AllDigits(d)
    requires |t| == 0 || !IsDigit(t[0])
    ensures TakeDigits(d + t) == d
  {
    if |d| > 0 {
      assert (d + t)[0] == d[0];
      assert (d + t)[1..] == d[1..] + t;
      TakeDigitsPrefix(d[1..], t);
      assert [d[0]] + d[1..] == d;
    } else {
      assert d + t == t;
    }
  }

  predicate NoComma(s: string) {
    forall j :: 0 <= j < |s| ==> s[j] != ','
  }

  lemma PairTextNoComma(p: Pair)
    ensures NoComma(PairText(p))
  {
  }

  /** A padded field followed by text not starting with a digit reads back
      to the field's digits and that text. */
  lemma ReadField(k: nat, a: string, t: string)
    requires 1 <= |a| && AllDigits(a)
    requires |t| == 0 || !IsDigit(t[0])
    ensures DropSpaces(Spaces(k) + a + t) == a + t
    ensures TakeDigits(a + t) == a
  {
    assert Spaces(k) + a + t == Spaces(k) + (a + t);
    DropSpacesPrefix(k, a + t);
    DropSpacesNone(a + t);
    TakeDigitsPrefix(a, t);
  }

  lemma ParseFieldsAligned(k1: nat, a: string, k2: nat, b: string)
    requires 1 <= |a| && 1 <= |b| && AllDigits(a) && AllDigits(b)
    ensures ParseFields(Spaces(k1) + a + (Spaces(k2 + 1) + b)) == Some(Pair(Value(a), Value(b)))
  {
    var tail := Spaces(k2 + 1) + b;
    ReadField(k1, a, tail);
    var x := DropSpaces(Spaces(k1) + a + tail);
    assert x == a + tail;
    assert TakeDigits(x) == a;
    assert x[|a|..] == tail;
    ReadField(k2 + 1, b, "");
    assert Spaces(k2 + 1) + b + "" == tail;
    assert DropSpaces(tail) == b;
    assert b + "" == b;
    assert TakeDigits(b) == b;
  }

  /** Two digit strings right-aligned in a common width read back to their values. */
  lemma ParseAligned(a: string, b: string, w: nat)
    requires 1 <= |a| <= w && 1 <= |b| <= w && AllDigits(a) && AllDigits(b)
    ensures ParseFields(LeftPad(a, w) + (" " + LeftPad(b, w))) == Some(Pair(Value(a), Value(b)))
  {
    SpaceCons(w - |b|, b);
    ParseFieldsAligned(w - |a|, a, w - |b|, b);
  }

  lemma StripBrackets(x: string)
    ensures ParsePair("[" + x + "]") == ParseFields(x)
  {
    var s := "[" + x + "]";
    assert s[1..|s| - 1] == x;
  }

  lemma SpaceCons(k: nat, b: string)
    ensures " " + (Spaces(k) + b) == Spaces(k + 1) + b
  {
    assert " " + Spaces(k) == Spaces(k + 1);
  }

  /** Each pair's text reads back to the pair. */
  lemma ParsePairText(p: Pair)
    ensures ParsePair(PairText(p)) == Some(p)
  {
    var a := Dec(p.onset);
    var b := Dec(p.offset);
    var w := if |a| >= |b| then |a| else |b|;
    StripBrackets(PairFields(p));
    ParseAligned(a, b, w);
    DecValue(p.onset);
    DecValue(p.offset);
  }

  lemma {:induction false} CommaAtPrefix(head: string, rest: string)
    requires NoComma(head)
    requires |rest| == 0 || rest[0] == ','
    ensures CommaAt(head + rest) == |head|
  {
    if |head| > 0 {
      assert (head + rest)[0] == head[0];
      assert (head + rest)[1..] == head[1..] + rest;
      CommaAtPrefix(head[1..], rest);
    } else {
      assert head + rest == rest;
    }
  }

  lemma ParseSingle(head: string, p: Pair)
    requires NoComma(head)
    requires ParsePair(head) == Some(p)
    ensures Parse(head) == Some([p])
  {
    assert |head| > 0;
    CommaAtPrefix(head, "");
    assert head + "" == head;
    assert head[..|head|] == head;
  }

  lemma ParseCons(head: string, p: Pair, tail: string)
    requires NoComma(head)
    requires ParsePair(head) == Some(p)
    requires |tail| > 0
    ensures Parse(head + Separator + tail) ==
      (match Parse(tail) case None => None case Some(ps) => Some([p] + ps))
  {
    var s := head + Separator + tail;
    SplitAtSeparator(head, tail);
    assert ParsePair(s[..|head|]) == Some(p);
    assert Parse(s[|head| + 2..]) == Parse(tail);
    ParseAtComma(s, |head|);
  }

  lemma SplitAtSeparator(head: string, tail: string)
    requires NoComma(head) && |tail| > 0
    ensures var s := head + Separator + tail;
      && CommaAt(s) == |head| && |head| + 2 < |s| && s[|head| + 1] == ' '
      && s[..|head|] == head && s[|head| + 2..] == tail
  {
    var s := head + Separator + tail;
    assert s == head + (Separator + tail);
    CommaAtPrefix(head, Separator + tail);
  }

  /** A text with a comma at `i` followed by a space and more text reads as
      the pair before the comma followed by the pairs after the space. */
  lemma ParseAtComma(s: string, i: nat)
    requires CommaAt(s) == i && i + 2 < |s| && s[i + 1] == ' '
    ensures Parse(s) ==
      (match ParsePair(s[..i])
       case None => None
       case Some(p) => (match Parse(s[i + 2..]) case None => None case Some(ps) => Some([p] + ps)))
  {
  }

  /** The `Trigger_Times` text reads back to exactly the detector's pairs, in
      the detector's order; so its number of pairs is `Number_of_Triggers`. */
  lemma {:induction false} ParseJoin(ps: seq<Pair>)
    ensures Parse(Join(ps)) == Some(ps)
    decreases |ps|
  {
    if |ps| == 0 {
      assert Join(ps) == "";
    } else if |ps| == 1 {
      ParseJoinOne(ps[0]);
      assert ps == [ps[0]];
    } else {
      ParseJoin(ps[1..]);
      ParseJoinCons(ps[0], ps[1..]);
      assert [ps[0]] + ps[1..] == ps;
    }
  }

  lemma ParseJoinOne(p: Pair)
    ensures Parse(Join([p])) == Some([p])
  {
    PairTextNoComma(p);
    ParsePairText(p);
    ParseSingle(PairText(p), p);
  }

  lemma ParseJoinCons(p: Pair, rest: seq<Pair>)
    requires |rest| > 0 && Parse(Join(rest)) == Some(rest)
    ensures Parse(Join([p] + rest)) == Some([p] + rest)
  {
    JoinCons(p, rest);
    PairTextNoComma(p);
    ParsePairText(p);
    ParseCons(PairText(p), p, Join(rest));
  }

  lemma JoinCons(p: Pair, rest: seq<Pair>)
    requires |rest| > 0
    ensures Join([p] + rest) == PairText(p) + Separator + Join(rest)
  {
    var ps := [p] + rest;
    assert |ps| > 1 && ps[0] == p && ps[1..] == rest;
  }
}
